=== FILE: README.md ===
# BBSlideoutMenu in Dafny

BBSlideoutMenu is a UIKit view that serves as a slide-out side menu. Presenting it
takes a snapshot of the key window and puts the snapshot on top. Behind the
snapshot go a cover view and the menu view itself. The snapshot then slides
sideways and shrinks vertically, while the menu scales up from a zoom factor
to full size. The menu is dismissed by a tap or a pan on the snapshot, and it
can be opened by a screen-edge pan on the window.

The model covers five parts of that behaviour:

- **Configuration** (`configuration.dfy`): the inspectable properties and the
  property observers that correct out-of-range assignments.
- **Geometry** (`geometry.dfy`): the layout values (the snapshot's constraint
  constants, the menu anchor, the menu's scale, the corner radius) as
  functions of one drag percentage. Covers the starting and destination
  layouts and the edge-pan and pan updates.
- **Gestures** (`gestures.dfy`): the percentages computed from one touch
  update, the release decisions (a velocity flick or a distance threshold)
  and the dismissal durations.
- **Recognizers** (`recognizers.dfy`): the window's gesture-recognizer list as
  far as the menu touches it. Covers `indexOf`, removal at that index and
  `append`.
- **Lifecycle** (`lifecycle.dfy`): the menu as a record that moves through the
  phases Closed, Tracking, Presenting, Open, Dismissing and Fading. It keeps
  the notifications it sends, in order, as an event trace. It also tracks
  whether the snapshot and the panel are in the window, and how often its edge
  recognizer occurs on the window.
  - Each animation is a pending completion, delivered by its own action.
  - `Step` dispatches one action and `Run` runs a list of them.
  - Both preserve `Invariant`: settings in range, the window never holding a
    stale or duplicate menu recognizer, views attached exactly when the phase
    says so, and a closed menu with a recognizer always re-armed.

`reals.dfy` and `wrappers.dfy` hold `Abs`/`Min`/`Max` and `Option`.
`CGFloat` and `Double` are modelled as exact reals.

## Model

| member | source | states |
|---|---|---|
| Configuration.Opposite | Pod/Classes/BBSlideoutMenu.swift:85-89 | The edge recognizer listens on the edge opposite the slide direction; never the same edge. |
| Configuration.ParseDirection | Pod/Classes/BBSlideoutMenu.swift:30-42 | After the `direction` observer the name always names the chosen direction; the name is kept exactly when it is "left" or "right"; any other name selects Left. |
| Configuration.ParseNameOf | Pod/Classes/BBSlideoutMenu.swift:30-42 | Round trip: assigning a direction's own name gives back that name and direction. |
| Configuration.DefaultsValid | Pod/Classes/BBSlideoutMenu.swift:30-81 | The declared defaults satisfy the ranges the observers maintain, and the default name matches the default direction. |
| Configuration.ClampTravelPercent | Pod/Classes/BBSlideoutMenu.swift:44-52 | `slideTravelPercent` always ends in [0.1, 1]; an in-range value is kept unchanged. |
| Configuration.ClampTravelPercentNearest | Pod/Classes/BBSlideoutMenu.swift:44-52 | The corrected travel is no farther from the assigned value than any allowed value. |
| Configuration.ClampSpringDamping | Pod/Classes/BBSlideoutMenu.swift:73-81 | `springDamping` always ends in [0, 1]; an in-range value is kept. |
| Configuration.ClampSpringDampingNearest | Pod/Classes/BBSlideoutMenu.swift:73-81 | The corrected damping is the nearest allowed value. |
| Configuration.ResetShrinkAmount | Pod/Classes/BBSlideoutMenu.swift:54-63 | The shrink amount is non-negative. A value in [0, screen height / 2] is kept. A negative value becomes 0, and a non-negative value above half the screen height becomes 60. |
| Configuration.ShrinkIsResetNotCapped | Pod/Classes/BBSlideoutMenu.swift:54-63 | An oversized shrink becomes 60, not the bound. On a screen taller than 120 that is below the bound; on a shorter one it exceeds it. |
| Configuration.Assign | Pod/Classes/BBSlideoutMenu.swift:30-97 | Any assignment keeps the settings valid. An accepted value reads back as assigned. Only the assigned property changes, except that `direction` also sets `slideDirection`. The direction name stays consistent. |
| Configuration.CorrectionIsStable | Pod/Classes/BBSlideoutMenu.swift:30-81 | Every correction is idempotent: re-assigning the value an observer left behind changes nothing. |
| Geometry.SignedOffset | Pod/Classes/BBSlideoutMenu.swift:263 | The closed menu anchor is the menu offset, negated for a Left slide. |
| Geometry.SlideAmount | Pod/Classes/BBSlideoutMenu.swift:220 | The travel's magnitude is window width × travel percent whatever its sign. When that product is positive, the travel is negative exactly for a Left slide. |
| Geometry.SlideAmountIsSignedMenuWidth | Pod/Classes/BBSlideoutMenu.swift:207-220 | The snapshot's travel has the menu's width as magnitude; it is negative exactly for a Left slide and positive exactly for Right. |
| Geometry.StartingIsClosed | Pod/Classes/BBSlideoutMenu.swift:310-314 | The starting layout (constraints at 0, anchor at the signed offset, scale at the zoom factor) is the edge-pan layout at 0. It is also the pan layout at the capped percentage 1, whatever the corner radius was. |
| Geometry.DestinationIsOpen | Pod/Classes/BBSlideoutMenu.swift:303-308 | The destination layout (top at the shrink amount, slide at the travel, anchor 0, scale 1, corner radius 5 from lines 340-341) is the edge-pan layout at 1. A pan at percentage 0 leaves it unchanged. |
| Geometry.EdgeLayout | Pod/Classes/BBSlideoutMenu.swift:433-446 | The edge-pan layout is the starting layout at 0 and the open layout at 1, with bottom always mirroring top. |
| Geometry.EdgeLayoutIsInterpolation | Pod/Classes/BBSlideoutMenu.swift:433-446 | Every layout value moves on a straight line from the starting to the open layout. |
| Geometry.PanLayout | Pod/Classes/BBSlideoutMenu.swift:376-390 | A pan at closing percentage p gives the edge-pan layout at 1-p. At p <= 0 the corner radius keeps its previous value. |
| Geometry.EdgeScaleMonotonic | Pod/Classes/BBSlideoutMenu.swift:445-446 | For a zoom factor of at most 1 and percentages within [0, 1], the menu's scale stays between the zoom factor and 1 and grows with the percentage. |
| Geometry.EdgeScaleOvershoots | Pod/Classes/BBSlideoutMenu.swift:431-446 | The edge-pan percentage is not capped, so with a zoom factor below 1 a percentage above 1 (a drag past the menu width) scales the menu beyond full size. |
| Gestures.OpeningSign | Pod/Classes/BBSlideoutMenu.swift:431 | The opening sign is ±1, positive exactly for a Right slide. |
| Gestures.EdgePercent | Pod/Classes/BBSlideoutMenu.swift:430-433 | The edge-pan percentage is the translation toward opening per menu width, floored at 0 and not capped. |
| Gestures.EdgeRatio | Pod/Classes/BBSlideoutMenu.swift:419-420 | The ratio compared on release is the unsigned translation per width. |
| Gestures.PanRatio | Pod/Classes/BBSlideoutMenu.swift:370-371 | The pan ratio is the translation toward closing per menu width. |
| Gestures.PanPercent | Pod/Classes/BBSlideoutMenu.swift:370-376 | The pan percentage is capped at 1 (one menu width) and not floored. |
| Gestures.EdgeEndOpens | Pod/Classes/BBSlideoutMenu.swift:449-451 | A released edge pan opens iff the velocity along the opening direction exceeds 500 or the ratio exceeds 0.5 in size. |
| Gestures.PanEndDismisses | Pod/Classes/BBSlideoutMenu.swift:396-398 | A released pan dismisses iff the velocity along the closing direction exceeds 500 or the percentage exceeds 0.8 in size. |
| Gestures.PanTravelLeft | Pod/Classes/BBSlideoutMenu.swift:376-378 | What is left of the open travel after a pan is the travel moved by the finger's translation. Once the finger has covered the whole width it is 0, because the percentage is capped at 1. |
| Gestures.VelocityTestsMirror | Pod/Classes/BBSlideoutMenu.swift:398-451 | The opening flick of an edge pan is the reversed dismissing flick of a pan. |
| Gestures.EdgeEndFlickOrHalfway | Pod/Classes/BBSlideoutMenu.swift:447-459 | A fast opening flick always opens. Otherwise the menu opens iff the drag passed half the menu width, in either direction. |
| Gestures.EdgeEndOpensOnBackwardDrag | Pod/Classes/BBSlideoutMenu.swift:430-451 | Dragging back 0.6 of the width shows percentage 0 while dragging, yet opens the menu on release. |
| Gestures.EdgeEndExamples | Pod/Classes/BBSlideoutMenu.swift:449-459 | Worked release decisions for a Left menu: the flick's sign and the 0.5 threshold. |
| Gestures.PanEndExamples | Pod/Classes/BBSlideoutMenu.swift:396-402 | Worked release decisions for a pan: 0.85 always dismisses; a slow 0.5 re-opens; a closing flick dismisses. |
| Gestures.PanEndFlickOrFar | Pod/Classes/BBSlideoutMenu.swift:370-398 | A closing flick always dismisses. Otherwise a pan dismisses iff the finger moved more than 0.8 of the menu width, in either direction. |
| Gestures.PanDismissTime | Pod/Classes/BBSlideoutMenu.swift:399 | For a non-negative slide time, the dismissal after a pan takes the slide time times the undragged share. |
| Gestures.PanDismissTimeByDistance | Pod/Classes/BBSlideoutMenu.swift:370-399 | In terms of the drag, that time is the slide time less the share of the menu width the finger covered, `Abs(dx)` / width. |
| Gestures.PanDismissTimeRange | Pod/Classes/BBSlideoutMenu.swift:394-399 | Within the menu width the dismissal time lies in [0, slideTime]. A drag past the width gives a negative duration. |
| Gestures.DismissDuration | Pod/Classes/BBSlideoutMenu.swift:265-266 | The main dismissal animation takes 0 when not animated, otherwise the given time, or the slide time when none is given. |
| Gestures.TeardownTime | Pod/Classes/BBSlideoutMenu.swift:265-295 | Teardown ends one 0.1 fade after the main animation. A main duration that is not positive runs at once, so the end is `Max(0, DismissDuration)` + 0.1. It is never before 0.1, and exactly 0.1 iff the main duration is not positive. |
| Recognizers.IndexOf | Pod/Classes/BBSlideoutMenu.swift:128-131 | `indexOf` finds nothing iff the recognizer is absent; otherwise it returns the first position that holds it. |
| Recognizers.Detach | Pod/Classes/BBSlideoutMenu.swift:128-131 | Removing at `indexOf` removes exactly one occurrence and nothing else; an absent recognizer leaves the list unchanged. |
| Recognizers.SystemsIgnoreEdges | Pod/Classes/BBSlideoutMenu.swift:128-135 | Detaching or appending a menu recognizer leaves the host's own recognizers, in order, unchanged. |
| Recognizers.SystemsConcat | Pod/Classes/BBSlideoutMenu.swift:135 | Filtering the host's recognizers distributes over concatenation. |
| Recognizers.DetachClearsEdges | Pod/Classes/BBSlideoutMenu.swift:128-131 | Removing the single occurrence of the only menu recognizer leaves none. |
| Recognizers.AttachToClean | Pod/Classes/BBSlideoutMenu.swift:133-135 | Appending a new recognizer to a clean list makes it the only menu recognizer, present once. |
| Lifecycle.SetupEdgePan | Pod/Classes/BBSlideoutMenu.swift:118-136 | A new recognizer on the opposite edge replaces the old one. It is on the window exactly once, the host's recognizers are unchanged, and the invariant holds. Apart from the recognizer fields, only the background save of lines 120-122 happens. |
| Lifecycle.SetupEdgePanTwice | Pod/Classes/BBSlideoutMenu.swift:118-136 | Two calls in a row leave only the second recognizer, once; the first is gone. |
| Lifecycle.OpenDamping | Pod/Classes/BBSlideoutMenu.swift:331-333 | The open animation's damping lies in [0, 1] for valid settings, and it is 1 whenever springs are disabled. With springs enabled it is the user's `springDamping`. |
| Lifecycle.SaveBackground | Pod/Classes/BBSlideoutMenu.swift:120-122 | Only the saved background may change. When nothing is saved yet, the menu's current background is saved. Once a colour has been saved it is never overwritten (the same guard recurs at lines 145-147). |
| Lifecycle.SaveBackgroundOnce | Pod/Classes/BBSlideoutMenu.swift:120-122 | Capturing twice is the same as capturing once, and after a capture from a set background some colour is saved. |
| Lifecycle.ImageCoverRestoresBackground | Pod/Classes/BBSlideoutMenu.swift:91-97 | Round trip: set an image, present (the image cover clears the background, lines 192-195), then remove the image. The menu's original background colour is back, however the presentation was animated. |
| Lifecycle.AnimateOpen | Pod/Classes/BBSlideoutMenu.swift:316-346 | Sends `willPresent` and takes the edge recognizer off the window. Sets the destination layout and starts the open animation with the spring damping (1 when springs are off). |
| Lifecycle.BuildSession | Pod/Classes/BBSlideoutMenu.swift:153-220 | The snapshot, cover and menu join the window at the starting layout. The menu width is window width × travel, and the travel points the way the slide direction opens. An image cover clears the background, and without an image the background is kept. The background colour is saved first, as in `SaveBackground` (lines 145-147). |
| Lifecycle.ShowInstantly | Pod/Classes/BBSlideoutMenu.swift:230-236 | The non-animated open: `willPresent`, the caller's closure, then `didPresent`, at the open layout. |
| Lifecycle.Present | Pod/Classes/BBSlideoutMenu.swift:143-244 | Without a snapshot nothing but the saved background changes. With one the views are attached and the travel is computed. The invariant is preserved. |
| Lifecycle.PausedPresent | Pod/Classes/BBSlideoutMenu.swift:217-238 | With `animate == nil` the session is built at the starting layout, with no notification and no recognizer change. |
| Lifecycle.AnimatedPresentOrder | Pod/Classes/BBSlideoutMenu.swift:222-229 | An animated present runs `willPresent`, `didPresent`, then the caller's closure, ending at the open layout with the recognizer off the window. |
| Lifecycle.InstantPresentOrder | Pod/Classes/BBSlideoutMenu.swift:230-236 | A non-animated present runs `willPresent`, the closure, then `didPresent`, leaving the recognizers as they were. |
| Lifecycle.FinishPresent | Pod/Classes/BBSlideoutMenu.swift:343-346 | On completion: `didPresent`, then the caller's closure; the menu is open. |
| Lifecycle.Dismiss | Pod/Classes/BBSlideoutMenu.swift:253-278 | Sends `willDismiss`, resets the layout to closed and starts the main animation with duration `animated ? (time ?? slideTime) : 0`. |
| Lifecycle.FinishDismiss | Pod/Classes/BBSlideoutMenu.swift:278-286 | The cover and the menu leave the window, and the snapshot starts its 0.1 fade. |
| Lifecycle.FinishFade | Pod/Classes/BBSlideoutMenu.swift:287-295 | The snapshot leaves the window. The recognizer is appended only if it was missing, so it ends present exactly once. Then `didDismiss` is sent. Nothing else changes: the phase becomes Closed and the snapshot is detached, and the recognizer list and trace change only as stated. |
| Lifecycle.DismissSequence | Pod/Classes/BBSlideoutMenu.swift:253-299 | The whole dismissal runs in order: willDismiss, panel removal, snapshot removal, re-arm if needed, didDismiss. It ends closed, with the recognizer present once. With a main animation of non-positive duration counted as 0, its two animations together last `TeardownTime`. |
| Lifecycle.DefaultTapTimeline | Pod/Classes/BBSlideoutMenu.swift:360-362 | With the default slide time, a tap dismisses in 0.5, the fade takes 0.1, the teardown ends at 0.6 (lines 265-295), and the menu ends closed. |
| Lifecycle.InstantRoundTrip | Pod/Classes/BBSlideoutMenu.swift:143-299 | An instant present followed by an immediate dismissal restores the closed layout and removes every added view. The recognizer list ends exactly as it was. |
| Lifecycle.TapHandle | Pod/Classes/BBSlideoutMenu.swift:360-362 | A tap, during an edge pan or on an open menu, dismisses with the full slide time: `willDismiss` and the closed layout. Nothing else changes. |
| Lifecycle.PanDrag | Pod/Classes/BBSlideoutMenu.swift:374-392 | A pan drag moves only the layout, along the line from the destination back to the start, by the percentage capped at 1. The corner radius is kept unless that percentage is positive. |
| Lifecycle.PanRelease | Pod/Classes/BBSlideoutMenu.swift:394-402 | A released pan dismisses exactly when `PanEndDismisses` holds, taking `PanDismissTime` and going to the closed layout. Otherwise it re-opens through `animateSlideOpen` without a closure (line 401). That sends `willPresent`, sets the open layout, starts `Presenting(slideTime, OpenDamping)` and takes the edge recognizer off the window. |
| Lifecycle.PanHandle | Pod/Classes/BBSlideoutMenu.swift:364-408 | `.Changed` acts as `PanDrag` and `.Ended` as `PanRelease`, with the same results, durations, layouts, open animation and recognizer removal. Other states change nothing. |
| Lifecycle.PanReleaseDecides | Pod/Classes/BBSlideoutMenu.swift:394-402 | A released pan dismisses iff the closing flick exceeds 500 or `Abs(dx)` exceeds 0.8 of the menu width. The dismissal then takes slideTime · (1 − `Abs(dx)` / width). |
| Lifecycle.PanDragFollowsFinger | Pod/Classes/BBSlideoutMenu.swift:370-392 | During a pan, tracking or open, the snapshot's slide is the open travel plus the translation in the menu view's coordinates. Once the drag passes the menu width it is 0. |
| Lifecycle.PanSlideFollowsFinger | Pod/Classes/BBSlideoutMenu.swift:376-378 | The same slide computed from `PanLayout` for a travel of ± the menu width. |
| Lifecycle.EdgeDrag | Pod/Classes/BBSlideoutMenu.swift:430-446 | An edge drag moves only the layout, along the line from the starting to the destination layout, by the translation toward opening per width, floored at 0. |
| Lifecycle.EdgeRelease | Pod/Classes/BBSlideoutMenu.swift:447-459 | A released edge pan animates open exactly when `EdgeEndOpens` holds. Opening sends `willPresent`, sets the destination layout and starts `Presenting(slideTime, OpenDamping)`; the empty closure has no observable effect. It also takes the edge recognizer off the window (lines 324-335). Otherwise it dismisses in 0.1, sending `willDismiss` and resetting the starting layout. |
| Lifecycle.EdgeHandle | Pod/Classes/BBSlideoutMenu.swift:412-465 | Every callback first sends `didStartEdgePan`. Other states change nothing else. A drag moves the layout along the starting-to-destination line by the floored percentage. A release opens exactly when `EdgeEndOpens` holds, with the same trace, open animation, destination layout and recognizer removal as `EdgeRelease`. Otherwise it dismisses in 0.1 at the starting layout. |
| Lifecycle.EdgeBeganIsSilent | Pod/Classes/BBSlideoutMenu.swift:417-428 | A began edge pan sends only `didStartEdgePan`: it builds the session at the starting layout, or builds nothing without a snapshot. |
| Lifecycle.EdgeDragFollowsFinger | Pod/Classes/BBSlideoutMenu.swift:430-435 | During an edge pan the snapshot's slide is the translation toward opening, in the menu view's coordinates, or 0 when the finger moves the other way. |
| Lifecycle.EdgeReleaseDecides | Pod/Classes/BBSlideoutMenu.swift:447-459 | A released edge pan opens iff the opening flick exceeds 500 or `Abs(dx)` exceeds half the menu width, and otherwise dismisses in 0.1. |
| Lifecycle.Configure | Pod/Classes/BBSlideoutMenu.swift:30-97 | An assignment updates the settings through the observers. A direction change turns the existing recognizer to the opposite edge; removing the image restores the saved colour; the invariant is preserved. |
| Lifecycle.Initial | Pod/Classes/BBSlideoutMenu.swift:30-112 | A new menu is closed, satisfies the invariant and has no recognizer on the window. |
| Lifecycle.Step | Pod/Classes/BBSlideoutMenu.swift:118-465 | Every enabled action preserves the invariant and only extends the event trace. |
| Lifecycle.Run | Pod/Classes/BBSlideoutMenu.swift:118-465 | Any run of enabled actions preserves the invariant and only extends the trace. |
| Lifecycle.RunNeverArmsTwice | Pod/Classes/BBSlideoutMenu.swift:118-327 | After any run, no menu recognizer is on the window twice, and a closed menu that has a recognizer has it on the window. |

## Behaviour of the code worth noting

- **Edge-pan release ratio.** The velocity test is signed along the opening
  direction (Pod/Classes/BBSlideoutMenu.swift:451), but the ratio it tests is not: a backward drag of more
  than half the width opens the menu too (`Gestures.EdgeEndOpensOnBackwardDrag`).
- **Edge-pan percentage.** It is floored at 0 but not capped at 1.
- **`shrinkAmount` correction.** An oversized value is reset to 60, not capped
  at half the screen height.
- **Pan dismissal time.** It is `slideTime - |slideTime · p|`, which is negative
  once the drag passes the menu width. UIKit runs an animation whose duration
  is not positive at once; `Gestures.TeardownTime` counts it as 0.
- **Non-animated presentation keeps the edge recognizer armed.** Lines 230-236
  never take it off the window, unlike `animateSlideOpen` (lines 324-327).
  An edge swipe on a menu opened that way starts a new `presentSlideMenu`.
- **`didStartEdgePan`.** It is sent on every edge-pan callback, not only when
  the pan begins.
- **`presentSlideMenu` with `animate == nil`.** It sends no notification.
- **Non-animated presentation order.** It notifies `willPresent`, the caller's
  closure, then `didPresent`. The animated order is `willPresent`,
  `didPresent`, closure.

## Left out

- The UIKit view work is not modelled: Auto Layout activation, the height-to-width ratio constraint, the
  height/width/centre constraints and the affine transform. Layout values are modelled as plain numbers.
- Animation curves and spring physics are not modelled: only durations, the open animation's damping and completions are.
  The dismiss animation's fixed damping of 1 (Pod/Classes/BBSlideoutMenu.swift:268) is not recorded.
  The second, empty animation in `animateSlideOpen` (Pod/Classes/BBSlideoutMenu.swift:348-355) has no effect and is left out.
- `keyWindow`, the window's size and `snapshotViewAfterScreenUpdates` come from UIKit. They are passed in as
  `Host` (width, whether a snapshot was produced). The screen height read by the `shrinkAmount` observer is
  part of the assignment.
- The window's recognizer list being `nil` is not modelled. The optional chaining then silently does nothing,
  and the force-unwrap in the fade completion would crash.
- Floating-point rounding is not modelled: `CGFloat` and `Double` are exact reals.
- Present: requires a closed menu. Calling `presentSlideMenu` while a session is already on screen
  stacks a second snapshot and fresh constraints; that is left out.
- Dismiss: requires a built session (Tracking or Open). Three cases are left out. Dismissing a menu that
  was never presented dereferences nil constraints and crashes. Dismissing in the middle of an animation
  interleaves animations. Dismissing an already closed menu after a session does not crash: it animates
  the stale constraints and sends `willDismiss` and `didDismiss` again.
- TapHandle, PanHandle, EdgeHandle: their requires exclude touches that arrive while an animation of the
  menu is in flight, or while no session is built. Interleaved animations and completions are not modelled.
  An edge pan that continues after a failed snapshot (nil constraints) is excluded too.
  So is an edge pan that begins while a session is on screen. The edge recognizer is still on the window
  in Tracking after a cancelled edge pan and in Open after a non-animated presentation. In the code such a
  swipe calls `presentSlideMenu(nil, nil)` again (Pod/Classes/BBSlideoutMenu.swift:428) and stacks a second
  snapshot.
- Lifecycle.SessionAgrees: only established by presentation. Assigning `slideDirection` mid-session makes
  the stored travel disagree with the direction; that is left out.
- The delegate is modelled as always present: every notification is recorded in the trace. A nil delegate
  only drops the notifications.
- The pan and tap recognizers installed on the snapshot are not modelled: they live and die with the snapshot.
- The diagnostic `print` in the `shrinkAmount` observer is output only and is left out.
- The background image itself is not modelled, only whether one is set. The image view's content mode is
  not modelled either.
- Lifecycle.AnimateOpen: the invariant is only promised when the panel is attached. That holds for every
  caller in the model.
- The example application (its view controller and storyboard) is not part of this model.

=== FILE: configuration.dfy ===
/**
  The menu's configurable properties and the property observers that silently
  correct out-of-range assignments (Pod/Classes/BBSlideoutMenu.swift:11-14, 30-97).
 */
module Configuration {
  import opened Reals

  /** The direction the content snapshot travels to make room for the menu. */
  datatype Direction = Left | Right

  /** The screen edge the edge-pan recognizer listens on for a given slide direction. */
  function Opposite(d: Direction): (o: Direction)
    ensures o != d
  {
    if d == Left then Right else Left
  }

  const LeftName: string := "left"
  const RightName: string := "right"

  /** The inspectable name that selects a direction. */
  function NameOf(d: Direction): (name: string)
    ensures name == LeftName || name == RightName
    ensures (name == LeftName) <==> d == Left
  {
    if d == Left then LeftName else RightName
  }

  /** The `direction` observer: "left" and "right" select their direction and are
      kept; any other name is rewritten to "left" and selects `Left`. */
  function ParseDirection(name: string): (r: (string, Direction))
    ensures r.0 == NameOf(r.1)
    ensures (name == LeftName || name == RightName) <==> r.0 == name
    ensures r.0 != name ==> r.1 == Left
  {
    if name == LeftName then (LeftName, Left)
    else if name == RightName then (RightName, Right)
    else (LeftName, Left)
  }

  /** Reading a direction's name back through the observer gives that direction. */
  lemma ParseNameOf(d: Direction)
    ensures ParseDirection(NameOf(d)) == (NameOf(d), d)
  {
  }

  /** The inspectable and public properties of a menu. `hasBackgroundImage` stands
      for `backgroundImage != nil`; the image itself is not modelled. */
  datatype Settings = Settings(
    directionName: string,
    slideDirection: Direction,
    slideTravelPercent: real,
    shrinkAmount: real,
    menuOffset: real,
    slideTime: real,
    zoomFactor: real,
    springEnabled: bool,
    springDamping: real,
    hasBackgroundImage: bool)

  /** The declared initial values (these do not pass through the observers). */
  const Defaults: Settings :=
    Settings(LeftName, Left, 0.8, 60.0, 150.0, 0.5, 0.8, true, 0.5, false)

  const MinTravelPercent: real := 0.1
  const MaxTravelPercent: real := 1.0
  /** The value an oversized `shrinkAmount` is reset to. */
  const ShrinkFallback: real := 60.0

  /** What the observers maintain for the corrected properties. The shrink bound
      of half the screen height is not kept: the fallback may exceed it, and the
      screen height is read anew on every assignment. */
  predicate Valid(s: Settings)
  {
    && MinTravelPercent <= s.slideTravelPercent <= MaxTravelPercent
    && 0.0 <= s.springDamping <= 1.0
    && s.shrinkAmount >= 0.0
  }

  lemma DefaultsValid()
    ensures Valid(Defaults)
    ensures Defaults.directionName == NameOf(Defaults.slideDirection)
  {
  }

  /** The `slideTravelPercent` observer. */
  function ClampTravelPercent(v: real): (r: real)
    ensures MinTravelPercent <= r <= MaxTravelPercent
    ensures MinTravelPercent <= v <= MaxTravelPercent ==> r == v
  {
    if v > 1.0 then 1.0
    else if v < 0.1 then 0.1
    else v
  }

  /** The correction moves an out-of-range value to the nearest allowed one. */
  lemma ClampTravelPercentNearest(v: real, y: real)
    requires MinTravelPercent <= y <= MaxTravelPercent
    ensures Abs(ClampTravelPercent(v) - v) <= Abs(y - v)
  {
  }

  /** The `springDamping` observer. */
  function ClampSpringDamping(v: real): (r: real)
    ensures 0.0 <= r <= 1.0
    ensures 0.0 <= v <= 1.0 ==> r == v
  {
    if v < 0.0 then 0.0
    else if v > 1.0 then 1.0
    else v
  }

  lemma ClampSpringDampingNearest(v: real, y: real)
    requires 0.0 <= y <= 1.0
    ensures Abs(ClampSpringDamping(v) - v) <= Abs(y - v)
  {
  }

  /** The `shrinkAmount` observer, given the screen height: a negative amount
      becomes 0, an amount above half the screen height is reset to 60. */
  function ResetShrinkAmount(v: real, screenHeight: real): (r: real)
    ensures r >= 0.0
    ensures 0.0 <= v <= screenHeight / 2.0 ==> r == v
    ensures r != v ==> r == 0.0 || r == ShrinkFallback
    ensures v < 0.0 ==> r == 0.0
    ensures 0.0 <= v && v > screenHeight / 2.0 ==> r == ShrinkFallback
  {
    if v < 0.0 then 0.0
    else if v > screenHeight / 2.0 then 60.0
    else v
  }

  /** The shrink correction is a reset, not a cap: on a screen taller than 120
      points an oversized amount ends up below the largest amount that would
      have been kept, and on a shorter screen the fallback itself is oversized. */
  lemma ShrinkIsResetNotCapped(v: real, screenHeight: real)
    requires v > screenHeight / 2.0 && v >= 0.0
    ensures ResetShrinkAmount(v, screenHeight) == ShrinkFallback
    ensures screenHeight > 120.0 ==> ResetShrinkAmount(v, screenHeight) < screenHeight / 2.0
    ensures 0.0 < screenHeight < 120.0 ==> ResetShrinkAmount(v, screenHeight) > screenHeight / 2.0
  {
  }

  /** One assignment to a configurable property, as a caller would write it. The
      shrink assignment carries the screen height the observer reads. */
  datatype Assignment =
    | AssignDirection(name: string)
    | AssignSlideDirection(direction: Direction)
    | AssignSlideTravelPercent(travel: real)
    | AssignShrinkAmount(shrink: real, screenHeight: real)
    | AssignSpringDamping(damping: real)
    | AssignMenuOffset(offset: real)
    | AssignSlideTime(time: real)
    | AssignZoomFactor(zoom: real)
    | AssignSpringEnabled(enabled: bool)
    | AssignBackgroundImage(present: bool)

  /** The assignment is of a value its observer keeps as given. */
  predicate Accepted(a: Assignment)
  {
    match a
    case AssignDirection(name) => name == LeftName || name == RightName
    case AssignSlideTravelPercent(v) => MinTravelPercent <= v <= MaxTravelPercent
    case AssignShrinkAmount(v, h) => 0.0 <= v <= h / 2.0
    case AssignSpringDamping(v) => 0.0 <= v <= 1.0
    case _ => true
  }

  /** Reading the assigned property back gives the assigned value. */
  predicate ReadsBack(s: Settings, a: Assignment)
  {
    match a
    case AssignDirection(name) => s.directionName == name
    case AssignSlideDirection(d) => s.slideDirection == d
    case AssignSlideTravelPercent(v) => s.slideTravelPercent == v
    case AssignShrinkAmount(v, _) => s.shrinkAmount == v
    case AssignSpringDamping(v) => s.springDamping == v
    case AssignMenuOffset(v) => s.menuOffset == v
    case AssignSlideTime(v) => s.slideTime == v
    case AssignZoomFactor(v) => s.zoomFactor == v
    case AssignSpringEnabled(b) => s.springEnabled == b
    case AssignBackgroundImage(b) => s.hasBackgroundImage == b
  }

  /** The properties an assignment (with its observers) may change. */
  predicate OnlyTouches(s: Settings, r: Settings, a: Assignment)
  {
    && (a.AssignDirection? || a.AssignSlideDirection? || r.slideDirection == s.slideDirection)
    && (a.AssignDirection? || r.directionName == s.directionName)
    && (a.AssignSlideTravelPercent? || r.slideTravelPercent == s.slideTravelPercent)
    && (a.AssignShrinkAmount? || r.shrinkAmount == s.shrinkAmount)
    && (a.AssignSpringDamping? || r.springDamping == s.springDamping)
    && (a.AssignMenuOffset? || r.menuOffset == s.menuOffset)
    && (a.AssignSlideTime? || r.slideTime == s.slideTime)
    && (a.AssignZoomFactor? || r.zoomFactor == s.zoomFactor)
    && (a.AssignSpringEnabled? || r.springEnabled == s.springEnabled)
    && (a.AssignBackgroundImage? || r.hasBackgroundImage == s.hasBackgroundImage)
  }

  /** Performs an assignment and runs the observers of the assigned property.
      A direction name's observer also assigns `slideDirection`; a direct
      `slideDirection` assignment leaves the name alone. */
  function Assign(s: Settings, a: Assignment): (r: Settings)
    ensures Valid(s) ==> Valid(r)
    ensures Accepted(a) ==> ReadsBack(r, a)
    ensures OnlyTouches(s, r, a)
    ensures a.AssignDirection? ==> r.directionName == NameOf(r.slideDirection)
    ensures a.AssignSlideDirection? ==> r.slideDirection == a.direction
  {
    match a
    case AssignDirection(name) =>
      var (n, d) := ParseDirection(name);
      s.(directionName := n, slideDirection := d)
    case AssignSlideDirection(d) => s.(slideDirection := d)
    case AssignSlideTravelPercent(v) => s.(slideTravelPercent := ClampTravelPercent(v))
    case AssignShrinkAmount(v, h) => s.(shrinkAmount := ResetShrinkAmount(v, h))
    case AssignSpringDamping(v) => s.(springDamping := ClampSpringDamping(v))
    case AssignMenuOffset(v) => s.(menuOffset := v)
    case AssignSlideTime(v) => s.(slideTime := v)
    case AssignZoomFactor(v) => s.(zoomFactor := v)
    case AssignSpringEnabled(b) => s.(springEnabled := b)
    case AssignBackgroundImage(b) => s.(hasBackgroundImage := b)
  }

  /** The assignment of the value `r` currently holds for the property `a` assigns. */
  function Echo(r: Settings, a: Assignment): Assignment
  {
    match a
    case AssignDirection(_) => AssignDirection(r.directionName)
    case AssignSlideDirection(_) => AssignSlideDirection(r.slideDirection)
    case AssignSlideTravelPercent(_) => AssignSlideTravelPercent(r.slideTravelPercent)
    case AssignShrinkAmount(_, h) => AssignShrinkAmount(r.shrinkAmount, h)
    case AssignSpringDamping(_) => AssignSpringDamping(r.springDamping)
    case AssignMenuOffset(_) => AssignMenuOffset(r.menuOffset)
    case AssignSlideTime(_) => AssignSlideTime(r.slideTime)
    case AssignZoomFactor(_) => AssignZoomFactor(r.zoomFactor)
    case AssignSpringEnabled(_) => AssignSpringEnabled(r.springEnabled)
    case AssignBackgroundImage(_) => AssignBackgroundImage(r.hasBackgroundImage)
  }

  /** Every correction lands on a fixed point: assigning back the value an
      assignment left behind changes nothing (for a non-negative screen height). */
  lemma CorrectionIsStable(s: Settings, a: Assignment)
    requires a.AssignShrinkAmount? ==> a.screenHeight >= 0.0
    ensures Assign(Assign(s, a), Echo(Assign(s, a), a)) == Assign(s, a)
  {
  }
}

=== FILE: geometry.dfy ===
/**
  The layout values the menu drives: the snapshot's top, bottom and slide
  constraint constants, the menu anchor constant, the menu's scale transform and
  the snapshot's corner radius, as functions of one drag percentage
  (Pod/Classes/BBSlideoutMenu.swift:217-220, 303-314, 376-390, 433-446).
 */
module Geometry {
  import opened Reals
  import opened Configuration

  datatype Layout = Layout(
    top: real,            // viTop.constant
    bottom: real,         // viBottom.constant
    slide: real,          // viSlide.constant
    menuAnchor: real,     // menuAnchor.constant
    scale: real,          // the menu's transform, a uniform scale
    cornerRadius: real)   // the snapshot layer's corner radius

  /** The snapshot's corner radius when the menu is open. */
  const OpenCornerRadius: real := 5.0

  /** `menuOffset * (slideDirection == .Right ? 1 : -1)`: the menu anchor while closed. */
  function SignedOffset(s: Settings): (r: real)
    ensures Abs(r) == Abs(s.menuOffset)
    ensures s.slideDirection == Right ==> r == s.menuOffset
    ensures s.slideDirection == Left ==> r == -s.menuOffset
  {
    s.menuOffset * (if s.slideDirection == Right then 1.0 else -1.0)
  }

  /** The snapshot's total travel: the window width times the travel percent,
      negative when the snapshot moves left. */
  function SlideAmount(s: Settings, windowWidth: real): (r: real)
    ensures Abs(r) == Abs(windowWidth * s.slideTravelPercent)
    ensures windowWidth * s.slideTravelPercent > 0.0 ==> (r < 0.0 <==> s.slideDirection == Left)
  {
    if s.slideDirection == Left then -(windowWidth * s.slideTravelPercent)
    else windowWidth * s.slideTravelPercent
  }

  /** The travel's magnitude is the menu's width, and its sign is the direction. */
  lemma SlideAmountIsSignedMenuWidth(s: Settings, windowWidth: real)
    requires Valid(s) && windowWidth > 0.0
    ensures Abs(SlideAmount(s, windowWidth)) == windowWidth * s.slideTravelPercent
    ensures s.slideDirection == Left <==> SlideAmount(s, windowWidth) < 0.0
    ensures s.slideDirection == Right <==> SlideAmount(s, windowWidth) > 0.0
  {
  }

  /** The layout right after a session is built: fresh constraints at 0, a fresh
      snapshot without rounding, and `setupStartingValues`. */
  function Starting(s: Settings): Layout
  {
    Layout(0.0, 0.0, 0.0, SignedOffset(s), s.zoomFactor, 0.0)
  }

  /** `setupDestinationValues` together with the open animation's corner radius and scale. */
  function Destination(s: Settings, slideAmount: real): Layout
  {
    Layout(s.shrinkAmount, -s.shrinkAmount, slideAmount, 0.0, 1.0, OpenCornerRadius)
  }

  /** The edge-pan `.Changed` update at percentage `p` (0 closed, 1 open). */
  function EdgeLayout(s: Settings, slideAmount: real, p: real): (g: Layout)
    ensures p == 0.0 ==> g == Starting(s)
    ensures p == 1.0 ==> g == Destination(s, slideAmount)
    ensures g.bottom == -g.top
  {
    var offset := s.menuOffset * (if s.slideDirection == Right then 1.0 else -1.0);
    Layout(
      s.shrinkAmount * p,
      -(s.shrinkAmount * p),
      slideAmount * p,
      offset - offset * p,
      s.zoomFactor + (1.0 - s.zoomFactor) * p,
      5.0 * p)
  }

  /** Straight-line interpolation of every layout value from `a` (at 0) to `b` (at 1). */
  function Lerp(a: Layout, b: Layout, p: real): Layout
  {
    Layout(
      a.top + (b.top - a.top) * p,
      a.bottom + (b.bottom - a.bottom) * p,
      a.slide + (b.slide - a.slide) * p,
      a.menuAnchor + (b.menuAnchor - a.menuAnchor) * p,
      a.scale + (b.scale - a.scale) * p,
      a.cornerRadius + (b.cornerRadius - a.cornerRadius) * p)
  }

  /** The edge-pan layout is the one straight line from the starting layout to
      the destination layout, for every percentage. */
  lemma EdgeLayoutIsInterpolation(s: Settings, slideAmount: real, p: real)
    ensures EdgeLayout(s, slideAmount, p) == Lerp(Starting(s), Destination(s, slideAmount), p)
  {
  }

  /** The pan `.Changed` update at closing percentage `p` (0 open, 1 closed);
      the corner radius is only written when `p > 0`, otherwise it keeps `previous`'s. */
  function PanLayout(s: Settings, slideAmount: real, previous: Layout, p: real): (g: Layout)
    ensures p > 0.0 ==> g == EdgeLayout(s, slideAmount, 1.0 - p)
    ensures p <= 0.0 ==> g == EdgeLayout(s, slideAmount, 1.0 - p).(cornerRadius := previous.cornerRadius)
  {
    var offset := s.menuOffset * (if s.slideDirection == Right then 1.0 else -1.0);
    var top := s.shrinkAmount - s.shrinkAmount * p;
    Layout(
      top,
      -top,
      slideAmount - slideAmount * p,
      offset * p,
      1.0 - (1.0 - s.zoomFactor) * p,
      if p > 0.0 then 5.0 - 5.0 * p else previous.cornerRadius)
  }

  /** The starting layout is where every edge pan begins and where a pan dragged
      a full menu width (the capped percentage 1) ends, whatever the travel. */
  lemma StartingIsClosed(s: Settings, slideAmount: real, previous: Layout)
    ensures Starting(s) == EdgeLayout(s, slideAmount, 0.0)
    ensures Starting(s) == PanLayout(s, slideAmount, previous, 1.0)
  {
  }

  /** The destination layout is where an edge pan dragged a full menu width ends,
      and a pan that has not moved leaves it as it is. */
  lemma DestinationIsOpen(s: Settings, slideAmount: real)
    ensures Destination(s, slideAmount) == EdgeLayout(s, slideAmount, 1.0)
    ensures PanLayout(s, slideAmount, Destination(s, slideAmount), 0.0) == Destination(s, slideAmount)
  {
  }

  /** While opening, the menu's scale grows from the zoom factor to 1 and never
      leaves that range (for a zoom factor of at most 1). */
  lemma EdgeScaleMonotonic(s: Settings, slideAmount: real, p: real, q: real)
    requires s.zoomFactor <= 1.0
    requires 0.0 <= p <= q <= 1.0
    ensures s.zoomFactor <= EdgeLayout(s, slideAmount, p).scale
    ensures EdgeLayout(s, slideAmount, p).scale <= EdgeLayout(s, slideAmount, q).scale
    ensures EdgeLayout(s, slideAmount, q).scale <= 1.0
  {
    var k := 1.0 - s.zoomFactor;
    assert 0.0 <= k * p by { assert k >= 0.0 && p >= 0.0; }
    assert k * p <= k * q by { assert k * q - k * p == k * (q - p); }
    assert k * q <= k by { assert k - k * q == k * (1.0 - q); }
    assert EdgeLayout(s, slideAmount, p).scale == s.zoomFactor + k * p;
    assert EdgeLayout(s, slideAmount, q).scale == s.zoomFactor + k * q;
  }

  /** The edge-pan percentage is not capped, so a drag past the menu width
      scales the menu beyond full size when the zoom factor is below 1. */
  lemma EdgeScaleOvershoots(s: Settings, slideAmount: real, p: real)
    requires s.zoomFactor < 1.0 && p > 1.0
    ensures EdgeLayout(s, slideAmount, p).scale > 1.0
  {
    var k := 1.0 - s.zoomFactor;
    assert k * p > k by { assert k * p - k == k * (p - 1.0); assert k > 0.0 && p - 1.0 > 0.0; }
    assert EdgeLayout(s, slideAmount, p).scale == s.zoomFactor + k * p;
    assert s.zoomFactor + k == 1.0;
  }
}

=== FILE: gestures.dfy ===
/**
  What the two drag gestures compute from one touch update: the drag percentage
  of `.Changed`, and at `.Ended` the velocity-or-distance decision and the
  dismissal duration (Pod/Classes/BBSlideoutMenu.swift:253-266, 360-402, 419-459).
 */
module Gestures {
  import opened Reals
  import opened Wrappers
  import opened Configuration

  /** `.Began`, `.Changed`, `.Ended`; every other recognizer state is `Other`. */
  datatype GestureState = Began | Changed | Ended | Other

  /** One gesture callback: the state, the horizontal translation in the menu
      view and the horizontal velocity in the window. */
  datatype Touch = Touch(state: GestureState, dx: real, vx: real)

  const VelocityThreshold: real := 500.0
  /** Distance past which a released edge pan opens the menu. */
  const OpenThreshold: real := 0.5
  /** Distance past which a released pan dismisses the menu. */
  const DismissThreshold: real := 0.8
  /** Dismissal time after an edge pan that did not open the menu. */
  const EdgeCancelTime: real := 0.1
  /** Duration of the snapshot's fade-out after a dismissal. */
  const FadeTime: real := 0.1

  /** +1 when rightward finger motion opens the menu, -1 when leftward motion
      does: the snapshot recedes toward `slideDirection`. */
  function OpeningSign(d: Direction): (r: real)
    ensures r == 1.0 || r == -1.0
    ensures (r > 0.0) <==> d.Right?
  {
    if d == Left then -1.0 else 1.0
  }

  /** The edge-pan `.Changed` percentage: signed toward opening and floored at 0,
      but not capped at 1. */
  function EdgePercent(dx: real, width: real, d: Direction): (p: real)
    requires width > 0.0
    ensures p >= 0.0
    ensures p * width == Max(0.0, OpeningSign(d) * dx)
  {
    var p := dx / width * (if d == Left then -1.0 else 1.0);
    if p < 0.0 then 0.0 else p
  }

  /** The unsigned ratio the edge-pan `.Ended` branch tests (computed before the
      state switch, never re-signed). */
  function EdgeRatio(dx: real, width: real): (r: real)
    requires width > 0.0
    ensures Abs(r) * width == Abs(dx)
  {
    dx / width
  }

  /** The pan percentage, signed toward closing, as the `.Ended` branch sees it. */
  function PanRatio(dx: real, width: real, d: Direction): (p: real)
    requires width > 0.0
    ensures p * width == -OpeningSign(d) * dx
  {
    dx / width * (if d == Right then -1.0 else 1.0)
  }

  /** The pan `.Changed` percentage: the closing ratio capped at 1, not floored. */
  function PanPercent(dx: real, width: real, d: Direction): (p: real)
    requires width > 0.0
    ensures p <= 1.0
    ensures p * width == Min(width, -OpeningSign(d) * dx)
  {
    var p := PanRatio(dx, width, d);
    if p >= 1.0 then 1.0 else p
  }

  /** The edge-pan `.Ended` decision: open on a flick faster than 500 toward
      opening, or on a drag of more than half the menu width in either direction. */
  function EdgeEndOpens(d: Direction, vx: real, ratio: real): (opens: bool)
    ensures opens <==> OpeningSign(d) * vx > VelocityThreshold || Abs(ratio) > OpenThreshold
  {
    (if d == Right then vx else -vx) > 500.0 || Abs(ratio) > 0.5
  }

  /** What is left of the open travel `sign · width` after a pan at the capped
      percentage: the travel moved by the finger, or nothing once the finger has
      covered the whole width. */
  lemma PanTravelLeft(d: Direction, width: real, dx: real)
    requires width > 0.0
    ensures var travel := OpeningSign(d) * width;
      travel - travel * PanPercent(dx, width, d) ==
      (if -OpeningSign(d) * dx <= width then travel + dx else 0.0)
  {
    var p := PanPercent(dx, width, d);
    assert p * width == Min(width, -OpeningSign(d) * dx);
    if d == Left {
      assert (OpeningSign(d) * width) * p == -(p * width);
    } else {
      assert (OpeningSign(d) * width) * p == p * width;
    }
  }

  /** The pan `.Ended` decision: dismiss on a flick faster than 500 toward
      closing, or on a drag of more than 0.8 of the menu width in either direction. */
  function PanEndDismisses(d: Direction, vx: real, p: real): (dismisses: bool)
    ensures dismisses <==> -OpeningSign(d) * vx > VelocityThreshold || Abs(p) > DismissThreshold
  {
    (if d == Left then vx else -vx) > 500.0 || Abs(p) > 0.8
  }

  /** The two velocity tests mirror each other: a flick that would open the menu
      from an edge pan is, reversed, a flick that dismisses it from a pan. */
  lemma VelocityTestsMirror(d: Direction, vx: real)
    ensures EdgeEndOpens(d, vx, 0.0) <==> PanEndDismisses(d, -vx, 0.0)
  {
  }

  /** A flick toward opening opens whatever the distance; a slow release opens
      exactly when the drag passed half the width, whichever way it went. */
  lemma EdgeEndFlickOrHalfway(d: Direction, vx: real, dx: real, width: real)
    requires width > 0.0
    ensures OpeningSign(d) * vx > VelocityThreshold ==> EdgeEndOpens(d, vx, EdgeRatio(dx, width))
    ensures OpeningSign(d) * vx <= VelocityThreshold ==>
      (EdgeEndOpens(d, vx, EdgeRatio(dx, width)) <==> Abs(dx) > OpenThreshold * width)
  {
    var r := EdgeRatio(dx, width);
    var a := Abs(r);
    assert a * width == Abs(dx);
    ScaleKeepsOrder(a, 0.5, width);
  }

  /** A flick toward closing dismisses whatever the distance; a slow release
      dismisses exactly when the drag passed 0.8 of the width, either way. */
  lemma PanEndFlickOrFar(d: Direction, vx: real, dx: real, width: real)
    requires width > 0.0
    ensures -OpeningSign(d) * vx > VelocityThreshold ==> PanEndDismisses(d, vx, PanRatio(dx, width, d))
    ensures -OpeningSign(d) * vx <= VelocityThreshold ==>
      (PanEndDismisses(d, vx, PanRatio(dx, width, d)) <==> Abs(dx) > DismissThreshold * width)
  {
    var p := PanRatio(dx, width, d);
    AbsScale(p, width);
    if d == Left {
      assert p * width == dx;
    } else {
      assert p * width == -dx;
    }
    assert Abs(p) * width == Abs(dx);
    ScaleKeepsOrder(Abs(p), DismissThreshold, width);
    assert Abs(p) > DismissThreshold <==> Abs(dx) > DismissThreshold * width;
    assert PanEndDismisses(d, vx, p) <==> -OpeningSign(d) * vx > VelocityThreshold || Abs(p) > DismissThreshold;
  }

  /** Because the compared ratio is unsigned, dragging back past the start by
      more than half the width opens the menu as well, although the percentage
      of `.Changed` shows it fully closed all along. */
  lemma EdgeEndOpensOnBackwardDrag(d: Direction, width: real)
    requires width > 0.0
    ensures EdgePercent(-OpeningSign(d) * 0.6 * width, width, d) == 0.0
    ensures EdgeEndOpens(d, 0.0, EdgeRatio(-OpeningSign(d) * 0.6 * width, width))
  {
    var dx := -OpeningSign(d) * 0.6 * width;
    assert Abs(dx) == 0.6 * width;
    EdgeEndFlickOrHalfway(d, 0.0, dx, width);
  }

  /** The released-edge examples: in the source's frame a leftward flick of 600
      opens a Left menu at 0.3, a rightward one (velocity +600) does not, a slow
      release at 0.6 opens and at 0.3 does not. */
  lemma EdgeEndExamples()
    ensures EdgeEndOpens(Left, -600.0, 0.3)
    ensures !EdgeEndOpens(Left, 600.0, 0.3)
    ensures EdgeEndOpens(Left, 100.0, 0.6)
    ensures !EdgeEndOpens(Left, 100.0, 0.3)
  {
  }

  /** The released-pan examples: 0.85 dismisses at any velocity; 0.5 at a slow
      100 re-opens either way; 0.5 dismisses on a flick of 600 toward closing. */
  lemma PanEndExamples(d: Direction, vx: real)
    ensures PanEndDismisses(d, vx, 0.85)
    ensures !PanEndDismisses(d, 100.0, 0.5) && !PanEndDismisses(d, -100.0, 0.5)
    ensures PanEndDismisses(Left, 600.0, 0.5) && PanEndDismisses(Right, -600.0, 0.5)
  {
  }

  /** `slideTime - abs(slideTime * percentage)`: the time a released pan's dismissal takes. */
  function PanDismissTime(slideTime: real, p: real): (t: real)
    ensures slideTime >= 0.0 ==> t == slideTime * (1.0 - Abs(p))
  {
    assert Abs(slideTime * p) == Abs(slideTime) * Abs(p);
    slideTime - Abs(slideTime * p)
  }

  /** The released pan's dismissal time in terms of the drag distance: the slide
      time less the share of the menu width the finger covered. */
  lemma PanDismissTimeByDistance(slideTime: real, dx: real, width: real, d: Direction)
    requires slideTime >= 0.0 && width > 0.0
    ensures PanDismissTime(slideTime, PanRatio(dx, width, d)) == slideTime * (1.0 - Abs(dx) / width)
  {
    var p := PanRatio(dx, width, d);
    AbsScale(p, width);
    if d == Left {
      assert p * width == dx;
    } else {
      assert p * width == -dx;
    }
    Unscale(Abs(p), width, Abs(dx));
  }

  /** For a drag within the menu width the time is the unfinished share of
      `slideTime`; a drag past the width yields a negative duration. */
  lemma PanDismissTimeRange(slideTime: real, p: real)
    requires slideTime > 0.0
    ensures Abs(p) <= 1.0 ==> 0.0 <= PanDismissTime(slideTime, p) <= slideTime
    ensures Abs(p) > 1.0 ==> PanDismissTime(slideTime, p) < 0.0
  {
    var t := PanDismissTime(slideTime, p);
    assert t == slideTime * (1.0 - Abs(p));
    if Abs(p) <= 1.0 {
      assert slideTime * Abs(p) <= slideTime * 1.0;
      assert slideTime * Abs(p) >= 0.0;
    } else {
      assert slideTime * Abs(p) > slideTime * 1.0;
    }
  }

  /** `animated ? (time ?? slideTime) : 0`: the main dismissal animation's duration. */
  function DismissDuration(animated: bool, time: Option<real>, slideTime: real): (t: real)
    ensures !animated ==> t == 0.0
    ensures animated && time.Some? ==> t == time.value
    ensures animated && time.None? ==> t == slideTime
  {
    if animated then time.GetOr(slideTime) else 0.0
  }

  /** When a dismissal's teardown ends: the snapshot's fade starts in the main
      animation's completion and lasts 0.1. A main animation whose duration is
      not positive completes at once. */
  function TeardownTime(animated: bool, time: Option<real>, slideTime: real): (t: real)
    ensures t == Max(0.0, DismissDuration(animated, time, slideTime)) + FadeTime
    ensures t >= FadeTime
    ensures t == FadeTime <==> DismissDuration(animated, time, slideTime) <= 0.0
  {
    if !animated then 0.1
    else match time
      case Some(given) => (if given > 0.0 then given else 0.0) + 0.1
      case None => (if slideTime > 0.0 then slideTime else 0.0) + 0.1
  }
}

=== FILE: lifecycle.dfy ===
/**
  The presentation lifecycle of one menu (Pod/Classes/BBSlideoutMenu.swift:85-136,
  143-299, 316-346, 360-465): building a session over a snapshot of the window,
  the open and dismiss animations as pending completions, the gesture handlers
  that drive the layout, the notifications in the order they are sent, and the
  window's recognizer list that the edge-pan recognizer joins and leaves.
 */
module Lifecycle {
  import opened Reals
  import opened Wrappers
  import opened Recognizers
  import opened Configuration
  import opened Geometry
  import opened Gestures

  /** What the menu notifies or does visibly, in order: the five delegate calls,
      the caller's `didPresentMenu` closure, and the view removals of a dismissal. */
  datatype Event =
    | DidStartEdgePan
    | WillPresent
    | DidPresent
    | PresentCompletion
    | WillDismiss
    | PanelRemoved        // cover and menu taken out of the window
    | SnapshotRemoved
    | EdgePanRearmed      // the edge recognizer appended to the window again
    | DidDismiss

  /** Where the menu is. `Presenting`, `Dismissing` and `Fading` each wait for one
      animation's completion; `Tracking` is an edge pan in progress. */
  datatype Phase =
    | Closed
    | Tracking
    | Presenting(duration: real, damping: real, completion: bool)
    | Open
    | Dismissing(duration: real)
    | Fading(duration: real)

  /** A view background colour: `nil`, the clear colour, or some other colour. */
  datatype Paint = Unset | Clear | Colour(id: nat)

  /** What the cover behind the snapshot shows. */
  datatype Cover = ImageCover | ColourCover(paint: Paint)

  /** The menu's screen-edge pan recognizer and the edge it listens on. */
  datatype EdgeRecognizer = EdgeRecognizer(serial: nat, edges: Direction)

  /** What presenting reads from the key window: its width, and whether a snapshot could be taken. */
  datatype Host = Host(width: real, snapshotAvailable: bool)

  datatype Menu = Menu(
    settings: Settings,
    background: Paint,            // the menu view's backgroundColor
    savedBackground: Paint,       // savedBackgroundColor
    cover: Cover,
    windowRecognizers: seq<Recognizer>,
    edgePan: Option<EdgeRecognizer>,
    nextSerial: nat,              // serial the next created recognizer gets
    phase: Phase,
    layout: Layout,
    slideAmount: real,
    panelWidth: real,             // the menu view's laid-out width
    snapshotAttached: bool,
    panelAttached: bool,          // cover and menu view in the window
    trace: seq<Event>)

  /** The edge recognizer exists and is on the window. */
  predicate Armed(m: Menu)
  {
    m.edgePan.Some? && ScreenEdge(m.edgePan.value.serial) in m.windowRecognizers
  }

  /** The window holds no menu recognizer but the current one, and that one at
      most once; the current one listens on the edge opposite the slide direction. */
  predicate RegistrationOk(m: Menu)
  {
    match m.edgePan
    case None => NoEdges(m.windowRecognizers)
    case Some(e) =>
      && e.serial < m.nextSerial
      && e.edges == Opposite(m.settings.slideDirection)
      && EdgesAre(m.windowRecognizers, e.serial)
      && multiset(m.windowRecognizers)[ScreenEdge(e.serial)] <= 1
  }

  /** The views in the window and the session values agree with the phase, and a
      closed menu with an edge recognizer can always be opened by an edge pan. */
  predicate ViewsMatchPhase(m: Menu)
  {
    && (m.snapshotAttached <==> !m.phase.Closed?)
    && (m.panelAttached <==> !(m.phase.Closed? || m.phase.Fading?))
    && (!m.phase.Closed? ==> m.panelWidth > 0.0 && Abs(m.slideAmount) == m.panelWidth)
    && (m.phase.Presenting? ==> 0.0 <= m.phase.damping <= 1.0)
    && (m.phase.Closed? && m.edgePan.Some? ==> Armed(m))
  }

  predicate Invariant(m: Menu)
  {
    Valid(m.settings) && RegistrationOk(m) && ViewsMatchPhase(m)
  }

  /** The session's travel points the way the current slide direction opens. It
      holds from presentation on, until `slideDirection` is reassigned mid-session. */
  predicate SessionAgrees(m: Menu)
  {
    m.slideAmount == OpeningSign(m.settings.slideDirection) * m.panelWidth
  }

  /** The recognizer bookkeeping depends only on the recognizer fields and the slide direction. */
  lemma SameRegistration(m: Menu, r: Menu)
    requires r.edgePan == m.edgePan && r.windowRecognizers == m.windowRecognizers
    requires r.nextSerial == m.nextSerial && r.settings == m.settings
    ensures RegistrationOk(r) == RegistrationOk(m)
    ensures Armed(r) == Armed(m)
  {
  }

  /** A menu before its first `setupEdgePan`, on a window holding the host's own recognizers. */
  function Initial(background: Paint, recognizers: seq<Recognizer>): (m: Menu)
    requires NoEdges(recognizers)
    ensures Invariant(m) && m.phase.Closed? && !Armed(m)
  {
    Menu(Defaults, background, Unset, ColourCover(Unset), recognizers, None, 0,
         Closed, Starting(Defaults), 0.0, 0.0, false, false, [])
  }

  function CompletionEvents(completion: bool): seq<Event>
  {
    if completion then [PresentCompletion] else []
  }

  /** `usingSpringWithDamping` of the open animation. */
  function OpenDamping(s: Settings): (d: real)
    ensures Valid(s) ==> 0.0 <= d <= 1.0
    ensures !s.springEnabled ==> d == 1.0
    ensures s.springEnabled ==> d == s.springDamping
  {
    if s.springEnabled then s.springDamping else 1.0
  }

  /** `savedBackgroundColor` is captured once, from the first non-nil background. */
  function SaveBackground(m: Menu): (r: Menu)
    ensures r == m.(savedBackground := r.savedBackground)
    ensures m.savedBackground != Unset ==> r.savedBackground == m.savedBackground
    ensures m.savedBackground == Unset ==> r.savedBackground == m.background
  {
    m.(savedBackground := if m.savedBackground == Unset then m.background else m.savedBackground)
  }

  /** Capturing the saved background a second time changes nothing. */
  lemma SaveBackgroundOnce(m: Menu)
    ensures SaveBackground(SaveBackground(m)) == SaveBackground(m)
    ensures m.background != Unset ==> SaveBackground(m).savedBackground != Unset
  {
  }

  /** The window's list with the current edge recognizer's first occurrence removed. */
  function WithoutEdgePan(m: Menu): (list: seq<Recognizer>)
    ensures Systems(list) == Systems(m.windowRecognizers)
    ensures RegistrationOk(m) ==> NoEdges(list)
  {
    match m.edgePan
    case None => m.windowRecognizers
    case Some(e) =>
      SystemsIgnoreEdges(m.windowRecognizers, e.serial);
      assert RegistrationOk(m) ==> NoEdges(Detach(m.windowRecognizers, ScreenEdge(e.serial))) by {
        if RegistrationOk(m) { DetachClearsEdges(m.windowRecognizers, e.serial); }
      }
      Detach(m.windowRecognizers, ScreenEdge(e.serial))
  }

  /** `setupEdgePan`: replaces the edge recognizer by a new one on the edge
      opposite the slide direction, on the window exactly once. */
  function SetupEdgePan(m: Menu): (r: Menu)
    ensures r.edgePan == Some(EdgeRecognizer(m.nextSerial, Opposite(m.settings.slideDirection)))
    ensures Systems(r.windowRecognizers) == Systems(m.windowRecognizers)
    ensures Invariant(m) ==> Invariant(r) && Armed(r)
    ensures Invariant(m) ==> multiset(r.windowRecognizers)[ScreenEdge(m.nextSerial)] == 1
    ensures r.nextSerial == m.nextSerial + 1
    ensures r.phase == m.phase && r.layout == m.layout && r.trace == m.trace && r.settings == m.settings
    ensures r == SaveBackground(m).(windowRecognizers := r.windowRecognizers, edgePan := r.edgePan,
                                    nextSerial := r.nextSerial)
  {
    var list := WithoutEdgePan(m);
    var e := EdgeRecognizer(m.nextSerial, Opposite(m.settings.slideDirection));
    SystemsIgnoreEdges(list, e.serial);
    assert Invariant(m) ==>
      EdgesAre(list + [ScreenEdge(e.serial)], e.serial)
      && multiset(list + [ScreenEdge(e.serial)])[ScreenEdge(e.serial)] == 1 by {
      if Invariant(m) { AttachToClean(list, e.serial); }
    }
    SaveBackground(m).(windowRecognizers := list + [ScreenEdge(e.serial)], edgePan := Some(e),
                       nextSerial := m.nextSerial + 1)
  }

  /** `animateSlideOpen`: announces the presentation, takes the edge recognizer off
      the window, sets the destination layout and starts the open animation. */
  function AnimateOpen(m: Menu, completion: bool): (r: Menu)
    ensures r.trace == m.trace + [WillPresent]
    ensures r.layout == Destination(m.settings, m.slideAmount)
    ensures r.phase == Presenting(m.settings.slideTime, OpenDamping(m.settings), completion)
    ensures Systems(r.windowRecognizers) == Systems(m.windowRecognizers)
    ensures Invariant(m) ==> !Armed(r)
    ensures Invariant(m) && m.panelAttached ==> Invariant(r)
    ensures r == m.(trace := r.trace, layout := r.layout, phase := r.phase, windowRecognizers := r.windowRecognizers)
  {
    var list := WithoutEdgePan(m);
    assert Invariant(m) && m.edgePan.Some? ==> ScreenEdge(m.edgePan.value.serial) !in list
                                               && multiset(list)[ScreenEdge(m.edgePan.value.serial)] == 0 by {
      if Invariant(m) && m.edgePan.Some? { NoEdgesCount(list, m.edgePan.value.serial); }
    }
    m.(trace := m.trace + [WillPresent], windowRecognizers := list,
       layout := Destination(m.settings, m.slideAmount),
       phase := Presenting(m.settings.slideTime, OpenDamping(m.settings), completion))
  }

  /** The session `presentSlideMenu` builds once it has a snapshot: snapshot,
      cover and menu in the window at the starting layout, the travel computed
      from the window width. */
  function BuildSession(m: Menu, host: Host): (r: Menu)
    requires m.phase.Closed? && host.width > 0.0
    ensures r.phase == Tracking && r.snapshotAttached && r.panelAttached
    ensures r.panelWidth == host.width * m.settings.slideTravelPercent
    ensures r.slideAmount == SlideAmount(m.settings, host.width)
    ensures r.layout == EdgeLayout(m.settings, r.slideAmount, 0.0)
    ensures r.cover == (if m.settings.hasBackgroundImage then ImageCover else ColourCover(m.background))
    ensures m.settings.hasBackgroundImage ==> r.background == Clear
    ensures !m.settings.hasBackgroundImage ==> r.background == m.background
    ensures r.savedBackground == SaveBackground(m).savedBackground
    ensures r.trace == m.trace && r.windowRecognizers == m.windowRecognizers
    ensures r.settings == m.settings && r.edgePan == m.edgePan && r.nextSerial == m.nextSerial
    ensures Invariant(m) ==> Invariant(r) && SessionAgrees(r)
  {
    var amount := SlideAmount(m.settings, host.width);
    var image := m.settings.hasBackgroundImage;
    assert Invariant(m) ==>
      Abs(amount) == host.width * m.settings.slideTravelPercent
      && amount == OpeningSign(m.settings.slideDirection) * (host.width * m.settings.slideTravelPercent) by {
      if Invariant(m) { SlideAmountIsSignedMenuWidth(m.settings, host.width); }
    }
    var r := SaveBackground(m).(
      background := if image then Clear else m.background,
      cover := if image then ImageCover else ColourCover(m.background),
      snapshotAttached := true,
      panelAttached := true,
      layout := Starting(m.settings),
      slideAmount := amount,
      panelWidth := host.width * m.settings.slideTravelPercent,
      phase := Tracking);
    SameRegistration(m, r);
    r
  }

  /** The non-animated branch of `presentSlideMenu`: `willPresent`, the rounded
      corners and full scale, the caller's closure, `didPresent`. */
  function ShowInstantly(m: Menu, completion: bool): (r: Menu)
    requires m.phase.Tracking?
    ensures r.phase == Open
    ensures r.trace == m.trace + [WillPresent] + CompletionEvents(completion) + [DidPresent]
    ensures r.layout == Destination(m.settings, m.slideAmount)
    ensures r == m.(phase := Open, trace := r.trace, layout := r.layout)
    ensures Invariant(m) ==> Invariant(r)
  {
    var r := m.(layout := Destination(m.settings, m.slideAmount), phase := Open,
                trace := m.trace + [WillPresent] + CompletionEvents(completion) + [DidPresent]);
    SameRegistration(m, r);
    r
  }

  /** `presentSlideMenu(animate, didPresentMenu)` on a closed menu; `completion`
      says whether a `didPresentMenu` closure was passed. Without a snapshot
      only the saved background colour may change. */
  function Present(m: Menu, host: Host, animate: Option<bool>, completion: bool): (r: Menu)
    requires m.phase.Closed?
    requires host.width > 0.0
    ensures !host.snapshotAvailable ==> r == m.(savedBackground := r.savedBackground)
    ensures host.snapshotAvailable ==>
      r.snapshotAttached && r.panelAttached && r.settings == m.settings
      && r.slideAmount == SlideAmount(m.settings, host.width)
    ensures Invariant(m) ==> Invariant(r)
  {
    if !host.snapshotAvailable then SaveBackground(m)
    else
      var built := BuildSession(m, host);
      match animate
      case None => built
      case Some(true) => AnimateOpen(built, completion)
      case Some(false) => ShowInstantly(built, completion)
  }

  /** The open animation's completion: `didPresent`, then the caller's closure. */
  function FinishPresent(m: Menu): (r: Menu)
    requires m.phase.Presenting?
    ensures r.phase == Open
    ensures r.trace == m.trace + [DidPresent] + CompletionEvents(m.phase.completion)
    ensures r == m.(phase := Open, trace := r.trace)
    ensures Invariant(m) ==> Invariant(r)
  {
    m.(phase := Open, trace := m.trace + [DidPresent] + CompletionEvents(m.phase.completion))
  }

  /** `dismissSlideMenu(animated, time)` on a menu with a settled session: resets
      the layout to its closed values and starts the main dismiss animation. */
  function Dismiss(m: Menu, animated: bool, time: Option<real>): (r: Menu)
    requires m.phase.Tracking? || m.phase.Open?
    ensures r.trace == m.trace + [WillDismiss]
    ensures r.layout == EdgeLayout(m.settings, m.slideAmount, 0.0)
    ensures r.phase == Dismissing(DismissDuration(animated, time, m.settings.slideTime))
    ensures r == m.(trace := r.trace, layout := r.layout, phase := r.phase)
    ensures Invariant(m) ==> Invariant(r)
  {
    m.(trace := m.trace + [WillDismiss], layout := Starting(m.settings),
       phase := Dismissing(DismissDuration(animated, time, m.settings.slideTime)))
  }

  /** The main dismiss animation's completion: cover and menu leave the window
      and the snapshot starts fading. */
  function FinishDismiss(m: Menu): (r: Menu)
    requires m.phase.Dismissing?
    ensures r.trace == m.trace + [PanelRemoved]
    ensures r.phase == Fading(FadeTime) && !r.panelAttached
    ensures r == m.(trace := r.trace, phase := r.phase, panelAttached := false)
    ensures Invariant(m) ==> Invariant(r)
  {
    m.(trace := m.trace + [PanelRemoved], phase := Fading(0.1), panelAttached := false)
  }

  /** The fade's completion: the snapshot leaves the window, the edge recognizer
      is appended again if it is not on the window, and `didDismiss` is sent. */
  function FinishFade(m: Menu): (r: Menu)
    requires m.phase.Fading?
    ensures r.phase == Closed && !r.snapshotAttached
    ensures r.trace == m.trace + [SnapshotRemoved]
                       + (if m.edgePan.Some? && !Armed(m) then [EdgePanRearmed] else [])
                       + [DidDismiss]
    ensures Systems(r.windowRecognizers) == Systems(m.windowRecognizers)
    ensures m.edgePan.Some? ==> Armed(r)
    ensures Armed(m) || m.edgePan.None? ==> r.windowRecognizers == m.windowRecognizers
    ensures Invariant(m) ==> Invariant(r)
    ensures Invariant(m) && m.edgePan.Some? ==>
      multiset(r.windowRecognizers)[ScreenEdge(m.edgePan.value.serial)] == 1
    ensures r == m.(snapshotAttached := false, phase := Closed, windowRecognizers := r.windowRecognizers,
                    trace := r.trace)
  {
    var rearm := m.edgePan.Some? && !Armed(m);
    var list :=
      if rearm then m.windowRecognizers + [ScreenEdge(m.edgePan.value.serial)]
      else m.windowRecognizers;
    assert Systems(list) == Systems(m.windowRecognizers) by {
      if m.edgePan.Some? { SystemsIgnoreEdges(m.windowRecognizers, m.edgePan.value.serial); }
    }
    assert Invariant(m) && m.edgePan.Some? ==>
      EdgesAre(list, m.edgePan.value.serial) && multiset(list)[ScreenEdge(m.edgePan.value.serial)] == 1 by {
      if Invariant(m) && m.edgePan.Some? {
        if rearm {
          EdgesAreAbsent(m.windowRecognizers, m.edgePan.value.serial);
          AttachToClean(m.windowRecognizers, m.edgePan.value.serial);
        } else {
          assert ScreenEdge(m.edgePan.value.serial) in multiset(m.windowRecognizers);
        }
      }
    }
    m.(snapshotAttached := false, phase := Closed, windowRecognizers := list,
       trace := m.trace + [SnapshotRemoved] + (if rearm then [EdgePanRearmed] else []) + [DidDismiss])
  }

  /** `tapHandle`: a tap on the snapshot dismisses with the full slide time. The
      tap recognizer is on the snapshot from the moment a session is built. */
  function TapHandle(m: Menu): (r: Menu)
    requires m.phase.Tracking? || m.phase.Open?
    ensures r.phase == Dismissing(m.settings.slideTime)
    ensures r.trace == m.trace + [WillDismiss]
    ensures r.layout == EdgeLayout(m.settings, m.slideAmount, 0.0)
    ensures r == m.(trace := r.trace, layout := r.layout, phase := r.phase)
    ensures Invariant(m) ==> Invariant(r)
  {
    Dismiss(m, true, None)
  }

  /** A pan touch can be handled: drags and releases act on a built session
      that no animation is moving. */
  predicate PanReady(m: Menu, t: Touch)
  {
    (t.state.Changed? || t.state.Ended?) ==> (m.phase.Tracking? || m.phase.Open?) && m.panelWidth > 0.0
  }

  /** The pan `.Changed` branch: the layout moved toward closed by the capped
      percentage; the corner radius is only written while that percentage is positive. */
  function PanDrag(m: Menu, dx: real): (r: Menu)
    requires m.panelWidth > 0.0
    ensures r == m.(layout := r.layout)
    ensures var q := PanPercent(dx, m.panelWidth, m.settings.slideDirection);
      var line := Lerp(Starting(m.settings), Destination(m.settings, m.slideAmount), 1.0 - q);
      r.layout == (if q > 0.0 then line else line.(cornerRadius := m.layout.cornerRadius))
    ensures Invariant(m) ==> Invariant(r)
  {
    var s := m.settings;
    var p := PanPercent(dx, m.panelWidth, s.slideDirection);
    EdgeLayoutIsInterpolation(s, m.slideAmount, 1.0 - p);
    var r := m.(layout := PanLayout(s, m.slideAmount, m.layout, p));
    SameRegistration(m, r);
    r
  }

  /** The pan `.Ended` branch: dismiss on a closing flick or a drag past 0.8 of
      the menu width, taking the undragged share of the slide time; otherwise
      animate open again. */
  function PanRelease(m: Menu, dx: real, vx: real): (r: Menu)
    requires (m.phase.Tracking? || m.phase.Open?) && m.panelWidth > 0.0
    ensures r.phase.Dismissing? || r.phase.Presenting?
    ensures r.phase.Dismissing? <==>
      PanEndDismisses(m.settings.slideDirection, vx, PanRatio(dx, m.panelWidth, m.settings.slideDirection))
    ensures r.phase.Dismissing? ==>
      && r.phase.duration == PanDismissTime(m.settings.slideTime, PanRatio(dx, m.panelWidth, m.settings.slideDirection))
      && r.trace == m.trace + [WillDismiss]
      && r.layout == EdgeLayout(m.settings, m.slideAmount, 0.0)
    ensures r.phase.Presenting? ==>
      && r.phase == Presenting(m.settings.slideTime, OpenDamping(m.settings), false)
      && r.trace == m.trace + [WillPresent]
      && r.layout == EdgeLayout(m.settings, m.slideAmount, 1.0)
      && (Invariant(m) ==> !Armed(r))
    ensures Invariant(m) ==> Invariant(r)
  {
    var d := m.settings.slideDirection;
    var p := PanRatio(dx, m.panelWidth, d);
    if PanEndDismisses(d, vx, p) then Dismiss(m, true, Some(PanDismissTime(m.settings.slideTime, p)))
    else AnimateOpen(m, false)
  }

  /** `panHandle`: `.Changed` moves the layout toward closed by the capped
      percentage; `.Ended` dismisses (shortened by the distance dragged) or
      animates open again; other states do nothing. */
  function PanHandle(m: Menu, t: Touch): (r: Menu)
    requires PanReady(m, t)
    ensures !(t.state.Changed? || t.state.Ended?) ==> r == m
    ensures t.state.Changed? ==> r == m.(layout := r.layout)
    ensures t.state.Changed? ==>
      var q := PanPercent(t.dx, m.panelWidth, m.settings.slideDirection);
      var line := Lerp(Starting(m.settings), Destination(m.settings, m.slideAmount), 1.0 - q);
      r.layout == (if q > 0.0 then line else line.(cornerRadius := m.layout.cornerRadius))
    ensures t.state.Ended? ==> r.phase.Dismissing? || r.phase.Presenting?
    ensures t.state.Ended? ==> (r.phase.Dismissing? <==>
      PanEndDismisses(m.settings.slideDirection, t.vx, PanRatio(t.dx, m.panelWidth, m.settings.slideDirection)))
    ensures t.state.Ended? && r.phase.Dismissing? ==>
      && r.phase.duration == PanDismissTime(m.settings.slideTime, PanRatio(t.dx, m.panelWidth, m.settings.slideDirection))
      && r.trace == m.trace + [WillDismiss] && r.layout == EdgeLayout(m.settings, m.slideAmount, 0.0)
    ensures t.state.Ended? && r.phase.Presenting? ==>
      && r.phase == Presenting(m.settings.slideTime, OpenDamping(m.settings), false)
      && r.trace == m.trace + [WillPresent] && r.layout == EdgeLayout(m.settings, m.slideAmount, 1.0)
      && (Invariant(m) ==> !Armed(r))
    ensures Invariant(m) ==> Invariant(r)
  {
    match t.state
    case Changed => PanDrag(m, t.dx)
    case Ended => PanRelease(m, t.dx, t.vx)
    case _ => m
  }

  /** An edge touch can be handled: a pan begins on a closed menu whose
      recognizer is on the window, and continues while tracking. */
  predicate EdgeReady(m: Menu, t: Touch, host: Host)
  {
    match t.state
    case Began => m.phase.Closed? && Armed(m) && host.width > 0.0
    case Changed => m.phase.Tracking? && m.panelWidth > 0.0
    case Ended => m.phase.Tracking? && m.panelWidth > 0.0
    case Other => true
  }

  /** The edge-pan `.Changed` branch: the layout opened by the translation toward
      opening per menu width, floored at 0. */
  function EdgeDrag(m: Menu, dx: real): (r: Menu)
    requires m.panelWidth > 0.0
    ensures r == m.(layout := r.layout)
    ensures r.layout == Lerp(Starting(m.settings), Destination(m.settings, m.slideAmount),
                             EdgePercent(dx, m.panelWidth, m.settings.slideDirection))
    ensures Invariant(m) ==> Invariant(r)
  {
    var s := m.settings;
    var p := EdgePercent(dx, m.panelWidth, s.slideDirection);
    EdgeLayoutIsInterpolation(s, m.slideAmount, p);
    var r := m.(layout := EdgeLayout(s, m.slideAmount, p));
    SameRegistration(m, r);
    r
  }

  /** The edge-pan `.Ended` branch: animate open on an opening flick or a drag
      past half the menu width either way, otherwise dismiss within 0.1. */
  function EdgeRelease(m: Menu, dx: real, vx: real): (r: Menu)
    requires m.phase.Tracking? && m.panelWidth > 0.0
    ensures r.phase.Presenting? || r.phase == Dismissing(EdgeCancelTime)
    ensures r.phase.Presenting? <==> EdgeEndOpens(m.settings.slideDirection, vx, EdgeRatio(dx, m.panelWidth))
    ensures r.phase.Presenting? ==>
      && r.trace == m.trace + [WillPresent]
      && r.phase == Presenting(m.settings.slideTime, OpenDamping(m.settings), false)
      && r.layout == Destination(m.settings, m.slideAmount)
      && (Invariant(m) ==> !Armed(r))
    ensures r.phase.Dismissing? ==> r.trace == m.trace + [WillDismiss] && r.layout == Starting(m.settings)
    ensures Invariant(m) ==> Invariant(r)
  {
    if EdgeEndOpens(m.settings.slideDirection, vx, EdgeRatio(dx, m.panelWidth)) then AnimateOpen(m, false)
    else Dismiss(m, true, Some(0.1))
  }

  /** `edgeHandle`: notifies `didStartEdgePan` on every callback, then `.Began`
      presents without animating, `.Changed` opens the layout by the floored
      percentage, `.Ended` animates open or dismisses within 0.1. */
  function EdgeHandle(m: Menu, t: Touch, host: Host): (r: Menu)
    requires EdgeReady(m, t, host)
    ensures m.trace + [DidStartEdgePan] <= r.trace
    ensures t.state.Other? ==> r == m.(trace := m.trace + [DidStartEdgePan])
    ensures t.state.Changed? ==> r == m.(trace := r.trace, layout := r.layout)
    ensures t.state.Changed? ==>
      r.layout == Lerp(Starting(m.settings), Destination(m.settings, m.slideAmount),
                       EdgePercent(t.dx, m.panelWidth, m.settings.slideDirection))
    ensures t.state.Ended? ==> r.phase.Presenting? || r.phase == Dismissing(EdgeCancelTime)
    ensures t.state.Ended? ==> (r.phase.Presenting? <==>
      EdgeEndOpens(m.settings.slideDirection, t.vx, EdgeRatio(t.dx, m.panelWidth)))
    ensures t.state.Ended? && r.phase.Presenting? ==>
      && r.trace == m.trace + [DidStartEdgePan] + [WillPresent]
      && r.phase == Presenting(m.settings.slideTime, OpenDamping(m.settings), false)
      && r.layout == Destination(m.settings, m.slideAmount)
      && (Invariant(m) ==> !Armed(r))
    ensures t.state.Ended? && r.phase.Dismissing? ==>
      r.trace == m.trace + [DidStartEdgePan] + [WillDismiss] && r.layout == Starting(m.settings)
    ensures Invariant(m) ==> Invariant(r)
  {
    var n := m.(trace := m.trace + [DidStartEdgePan]);
    SameRegistration(m, n);
    match t.state
    case Began => Present(n, host, None, false)
    case Changed => EdgeDrag(n, t.dx)
    case Ended => EdgeRelease(n, t.dx, t.vx)
    case Other => n
  }

  /** An assignment to a property: runs its observers; a slide direction
      assignment turns the edge recognizer to the opposite edge, and removing
      the background image restores the saved background colour. */
  function Configure(m: Menu, a: Assignment): (r: Menu)
    ensures r.settings == Assign(m.settings, a)
    ensures r.edgePan.Some? <==> m.edgePan.Some?
    ensures r.edgePan.Some? ==> r.edgePan.value.serial == m.edgePan.value.serial
    ensures (a.AssignDirection? || a.AssignSlideDirection?) && r.edgePan.Some? ==>
      r.edgePan.value.edges == Opposite(r.settings.slideDirection)
    ensures a.AssignBackgroundImage? && !a.present ==> r.background == m.savedBackground
    ensures !(a.AssignBackgroundImage? && !a.present) ==> r.background == m.background
    ensures r == m.(settings := r.settings, edgePan := r.edgePan, background := r.background)
    ensures Invariant(m) ==> Invariant(r)
  {
    var s := Assign(m.settings, a);
    var edge :=
      if (a.AssignDirection? || a.AssignSlideDirection?) && m.edgePan.Some?
      then Some(m.edgePan.value.(edges := Opposite(s.slideDirection)))
      else m.edgePan;
    var background :=
      if a.AssignBackgroundImage? && !a.present then m.savedBackground else m.background;
    m.(settings := s, edgePan := edge, background := background)
  }

  /** Everything that can happen to a menu: a call or assignment by its owner, a
      touch, or an animation completing. */
  datatype Action =
    | SetProperty(assignment: Assignment)
    | ArmEdgePan
    | PresentCall(host: Host, animate: Option<bool>, completion: bool)
    | DismissCall(animated: bool, time: Option<real>)
    | Tap
    | PanTouch(touch: Touch)
    | EdgeTouch(touch: Touch, edgeHost: Host)
    | OpenAnimationDone
    | DismissAnimationDone
    | FadeDone

  /** The action is within the modelled behaviour: a call that needs a settled
      session has one, and no animation of the menu is overtaken by another. */
  predicate Enabled(m: Menu, a: Action)
  {
    match a
    case SetProperty(_) => true
    case ArmEdgePan => true
    case PresentCall(host, _, _) => m.phase.Closed? && host.width > 0.0
    case DismissCall(_, _) => m.phase.Tracking? || m.phase.Open?
    case Tap => m.phase.Tracking? || m.phase.Open?
    case PanTouch(t) => PanReady(m, t)
    case EdgeTouch(t, host) => EdgeReady(m, t, host)
    case OpenAnimationDone => m.phase.Presenting?
    case DismissAnimationDone => m.phase.Dismissing?
    case FadeDone => m.phase.Fading?
  }

  /** A call or property assignment by the menu's owner. */
  function CallStep(m: Menu, a: Action): (r: Menu)
    requires Enabled(m, a)
    requires a.SetProperty? || a.ArmEdgePan? || a.PresentCall? || a.DismissCall?
    ensures Invariant(m) ==> Invariant(r)
    ensures m.trace <= r.trace
  {
    match a
    case SetProperty(x) => Configure(m, x)
    case ArmEdgePan => SetupEdgePan(m)
    case PresentCall(host, animate, completion) => Present(m, host, animate, completion)
    case DismissCall(animated, time) => Dismiss(m, animated, time)
  }

  /** A touch, or an animation completing. */
  function EventStep(m: Menu, a: Action): (r: Menu)
    requires Enabled(m, a)
    requires a.Tap? || a.PanTouch? || a.EdgeTouch? || a.OpenAnimationDone? || a.DismissAnimationDone? || a.FadeDone?
    ensures Invariant(m) ==> Invariant(r)
    ensures m.trace <= r.trace
  {
    match a
    case Tap => TapHandle(m)
    case PanTouch(t) => PanHandle(m, t)
    case EdgeTouch(t, host) => EdgeHandle(m, t, host)
    case OpenAnimationDone => FinishPresent(m)
    case DismissAnimationDone => FinishDismiss(m)
    case FadeDone => FinishFade(m)
  }

  function Step(m: Menu, a: Action): (r: Menu)
    requires Enabled(m, a)
    ensures Invariant(m) ==> Invariant(r)
    ensures m.trace <= r.trace
  {
    if a.SetProperty? || a.ArmEdgePan? || a.PresentCall? || a.DismissCall? then CallStep(m, a)
    else EventStep(m, a)
  }

  /** Runs the actions in order; `None` when one of them is outside the modelled behaviour. */
  function Run(m: Menu, actions: seq<Action>): (r: Option<Menu>)
    ensures Invariant(m) && r.Some? ==> Invariant(r.value)
    ensures r.Some? ==> m.trace <= r.value.trace
    decreases |actions|
  {
    if |actions| == 0 then Some(m)
    else if !Enabled(m, actions[0]) then None
    else
      var next := Step(m, actions[0]);
      Run(next, actions[1..])
  }

  /** Calling `setupEdgePan` twice in a row leaves exactly one menu recognizer on
      the window: the second one, once; the host's own recognizers are untouched. */
  lemma SetupEdgePanTwice(m: Menu)
    requires Invariant(m)
    ensures var r := SetupEdgePan(SetupEdgePan(m));
      && r.edgePan.Some? && r.edgePan.value.serial == m.nextSerial + 1
      && multiset(r.windowRecognizers)[ScreenEdge(m.nextSerial + 1)] == 1
      && multiset(r.windowRecognizers)[ScreenEdge(m.nextSerial)] == 0
      && EdgesAre(r.windowRecognizers, m.nextSerial + 1)
      && Systems(r.windowRecognizers) == Systems(m.windowRecognizers)
  {
    var once := SetupEdgePan(m);
    assert Invariant(once) && once.nextSerial == m.nextSerial + 1;
    var r := SetupEdgePan(once);
    assert Invariant(r) && r.edgePan.value.serial == m.nextSerial + 1;
    OthersAbsent(r.windowRecognizers, m.nextSerial + 1, m.nextSerial);
  }

  /** Presenting with `animate == nil`, as a began edge pan does, only builds the
      session at the starting layout: no notification, no recognizer change. */
  lemma PausedPresent(m: Menu, host: Host, completion: bool)
    requires Invariant(m) && m.phase.Closed?
    requires host.width > 0.0 && host.snapshotAvailable
    ensures var r := Present(m, host, None, completion);
      && r.phase == Tracking && r.trace == m.trace
      && r.layout == EdgeLayout(m.settings, r.slideAmount, 0.0)
      && r.windowRecognizers == m.windowRecognizers
      && SessionAgrees(r)
  {
  }

  /** An animated presentation sends `willPresent`, then on completion
      `didPresent` and only then the caller's closure; the edge recognizer is
      off the window while the menu is open. */
  lemma AnimatedPresentOrder(m: Menu, host: Host, completion: bool)
    requires Invariant(m) && m.phase.Closed?
    requires host.width > 0.0 && host.snapshotAvailable
    ensures var r := FinishPresent(Present(m, host, Some(true), completion));
      && r.phase == Open && Invariant(r) && !Armed(r)
      && r.trace == m.trace + [WillPresent, DidPresent] + CompletionEvents(completion)
      && r.layout == EdgeLayout(m.settings, r.slideAmount, 1.0)
  {
    var b := BuildSession(m, host);
    var p := Present(m, host, Some(true), completion);
    assert p == AnimateOpen(b, completion);
    assert p.phase.completion == completion;
  }

  /** A presentation without animation sends `willPresent`, the caller's closure
      and `didPresent` back to back, and leaves the edge recognizer where it was. */
  lemma InstantPresentOrder(m: Menu, host: Host, completion: bool)
    requires Invariant(m) && m.phase.Closed?
    requires host.width > 0.0 && host.snapshotAvailable
    ensures var r := Present(m, host, Some(false), completion);
      && r.phase == Open && Invariant(r)
      && r.trace == m.trace + [WillPresent] + CompletionEvents(completion) + [DidPresent]
      && r.layout == EdgeLayout(m.settings, r.slideAmount, 1.0)
      && r.windowRecognizers == m.windowRecognizers
  {
  }

  /** A began edge pan notifies `didStartEdgePan` and nothing else: the session
      is built at the starting layout, or, with no snapshot, nothing is built. */
  lemma EdgeBeganIsSilent(m: Menu, t: Touch, host: Host)
    requires Invariant(m) && t.state.Began? && EdgeReady(m, t, host)
    ensures var r := EdgeHandle(m, t, host);
      && r.trace == m.trace + [DidStartEdgePan]
      && (host.snapshotAvailable ==> r.phase == Tracking && r.layout == Starting(m.settings) && SessionAgrees(r))
      && (!host.snapshotAvailable ==> r.phase == Closed && !r.snapshotAttached && !r.panelAttached)
      && r.windowRecognizers == m.windowRecognizers
  {
  }

  /** A dismissal runs `willDismiss`, cover and menu removal, snapshot removal,
      re-arming of an edge recognizer that was off the window, `didDismiss`; it
      ends closed at the starting layout with the recognizer on the window once. */
  lemma DismissSequence(m: Menu, animated: bool, time: Option<real>)
    requires Invariant(m) && (m.phase.Tracking? || m.phase.Open?)
    ensures var d := Dismiss(m, animated, time);
      var f := FinishDismiss(d);
      var r := FinishFade(f);
      && Max(0.0, d.phase.duration) + f.phase.duration == TeardownTime(animated, time, m.settings.slideTime)
      && Invariant(r) && r.phase == Closed
      && !r.snapshotAttached && !r.panelAttached
      && r.trace == m.trace + [WillDismiss, PanelRemoved, SnapshotRemoved]
                    + (if m.edgePan.Some? && !Armed(m) then [EdgePanRearmed] else [])
                    + [DidDismiss]
      && r.layout == Starting(m.settings)
      && (m.edgePan.Some? ==> multiset(r.windowRecognizers)[ScreenEdge(m.edgePan.value.serial)] == 1)
      && Systems(r.windowRecognizers) == Systems(m.windowRecognizers)
  {
    var d := Dismiss(m, animated, time);
    var f := FinishDismiss(d);
    assert Armed(f) == Armed(m) && f.edgePan == m.edgePan;
  }

  /** A tap with the default slide time: the main dismiss animation takes 0.5,
      the snapshot's fade 0.1, so the teardown ends at 0.6. */
  lemma DefaultTapTimeline(m: Menu)
    requires m.phase.Tracking? || m.phase.Open?
    requires m.settings.slideTime == Defaults.slideTime
    ensures var d := TapHandle(m);
      var f := FinishDismiss(d);
      && d.phase == Dismissing(0.5) && f.phase == Fading(0.1)
      && d.phase.duration + f.phase.duration == 0.6
      && FinishFade(f).phase == Closed
  {
  }

  /** Presenting without animation and dismissing at once with time 0 restores
      the closed layout, takes every view it added out of the window and leaves
      the window's recognizer list exactly as it was. */
  lemma InstantRoundTrip(m: Menu, host: Host, completion: bool)
    requires Invariant(m) && m.phase.Closed?
    requires host.width > 0.0 && host.snapshotAvailable
    ensures var p := Present(m, host, Some(false), completion);
      var d := Dismiss(p, false, Some(0.0));
      var r := FinishFade(FinishDismiss(d));
      && d.phase == Dismissing(0.0)
      && r.phase == Closed && !r.snapshotAttached && !r.panelAttached
      && r.layout == EdgeLayout(m.settings, p.slideAmount, 0.0)
      && r.windowRecognizers == m.windowRecognizers
      && r.trace == m.trace + [WillPresent] + CompletionEvents(completion)
                    + [DidPresent, WillDismiss, PanelRemoved, SnapshotRemoved, DidDismiss]
  {
    var p := Present(m, host, Some(false), completion);
    DismissSequence(p, false, Some(0.0));
  }

  /** The background colour survives an image cover: setting an image, presenting
      (which clears the menu's background behind the image) and removing the
      image again brings back the colour the menu had before, however the
      presentation was animated. */
  lemma ImageCoverRestoresBackground(m: Menu, host: Host, animate: Option<bool>, completion: bool)
    requires m.phase.Closed? && m.savedBackground == Unset
    requires host.width > 0.0 && host.snapshotAvailable
    ensures var withImage := Configure(m, AssignBackgroundImage(true));
      var p := Present(withImage, host, animate, completion);
      && p.background == Clear
      && Configure(p, AssignBackgroundImage(false)).background == m.background
  {
  }

  /** While an edge pan tracks, the snapshot's slide equals the finger's
      translation when it moves toward opening, and stays at 0 otherwise. */
  lemma EdgeDragFollowsFinger(m: Menu, dx: real, vx: real, host: Host)
    requires m.phase.Tracking? && m.panelWidth > 0.0 && SessionAgrees(m)
    ensures var r := EdgeHandle(m, Touch(Changed, dx, vx), host);
      r.layout.slide == (if OpeningSign(m.settings.slideDirection) * dx >= 0.0 then dx else 0.0)
  {
    var d := m.settings.slideDirection;
    var w := m.panelWidth;
    var sign := OpeningSign(d);
    var p := EdgePercent(dx, w, d);
    assert p * w == Max(0.0, sign * dx);
    assert m.slideAmount * p == sign * (p * w);
    assert sign * sign == 1.0;
  }

  /** While a pan closes the menu, the snapshot's slide is the open travel moved
      by the finger's translation, until the drag passes the menu width. */
  lemma PanDragFollowsFinger(m: Menu, dx: real, vx: real)
    requires (m.phase.Tracking? || m.phase.Open?) && m.panelWidth > 0.0 && SessionAgrees(m)
    ensures var r := PanHandle(m, Touch(Changed, dx, vx));
      r.layout.slide == (if -OpeningSign(m.settings.slideDirection) * dx <= m.panelWidth
                         then m.slideAmount + dx else 0.0)
  {
    var p := PanPercent(dx, m.panelWidth, m.settings.slideDirection);
    assert PanHandle(m, Touch(Changed, dx, vx)).layout == PanLayout(m.settings, m.slideAmount, m.layout, p);
    PanSlideFollowsFinger(m.settings, m.panelWidth, m.layout, dx);
  }

  /** The pan snapshot's slide for a menu that opened by its full width. */
  lemma PanSlideFollowsFinger(s: Settings, w: real, previous: Layout, dx: real)
    requires w > 0.0
    ensures var sign := OpeningSign(s.slideDirection);
      PanLayout(s, sign * w, previous, PanPercent(dx, w, s.slideDirection)).slide ==
        (if -sign * dx <= w then sign * w + dx else 0.0)
  {
    PanTravelLeft(s.slideDirection, w, dx);
  }

  /** A released edge pan opens the menu exactly on a flick faster than 500 toward
      opening or a drag past half the menu width, whichever way it went. */
  lemma EdgeReleaseDecides(m: Menu, t: Touch, host: Host)
    requires t.state.Ended? && EdgeReady(m, t, host)
    ensures EdgeHandle(m, t, host).phase.Presenting? <==>
      OpeningSign(m.settings.slideDirection) * t.vx > VelocityThreshold || Abs(t.dx) > OpenThreshold * m.panelWidth
    ensures !EdgeHandle(m, t, host).phase.Presenting? ==> EdgeHandle(m, t, host).phase == Dismissing(EdgeCancelTime)
  {
    EdgeEndFlickOrHalfway(m.settings.slideDirection, t.vx, t.dx, m.panelWidth);
  }

  /** A released pan dismisses exactly on a flick faster than 500 toward closing
      or a drag past 0.8 of the menu width, either way; the dismissal then takes
      the slide time less the dragged share of it. */
  lemma PanReleaseDecides(m: Menu, t: Touch)
    requires t.state.Ended? && PanReady(m, t)
    ensures PanHandle(m, t).phase.Dismissing? <==>
      -OpeningSign(m.settings.slideDirection) * t.vx > VelocityThreshold || Abs(t.dx) > DismissThreshold * m.panelWidth
    ensures PanHandle(m, t).phase.Dismissing? && m.settings.slideTime >= 0.0 ==>
      PanHandle(m, t).phase.duration == m.settings.slideTime * (1.0 - Abs(t.dx) / m.panelWidth)
  {
    PanEndFlickOrFar(m.settings.slideDirection, t.vx, t.dx, m.panelWidth);
    if m.settings.slideTime >= 0.0 {
      PanDismissTimeByDistance(m.settings.slideTime, t.dx, m.panelWidth, m.settings.slideDirection);
    }
  }

  /** Whatever the owner, the user and the animations do, the window never holds
      a menu recognizer twice, never holds a replaced one, and a closed menu's
      recognizer is on the window. */
  lemma {:induction false} RunNeverArmsTwice(m: Menu, actions: seq<Action>)
    requires Invariant(m)
    requires Run(m, actions).Some?
    ensures var r := Run(m, actions).value;
      && (forall k: nat :: multiset(r.windowRecognizers)[ScreenEdge(k)] <= 1)
      && (r.phase.Closed? && r.edgePan.Some? ==> Armed(r))
  {
    var r := Run(m, actions).value;
    forall k: nat
      ensures multiset(r.windowRecognizers)[ScreenEdge(k)] <= 1
    {
      match r.edgePan
      case None => NoEdgesCount(r.windowRecognizers, k);
      case Some(e) =>
        if k != e.serial { OthersAbsent(r.windowRecognizers, e.serial, k); }
    }
  }
}

=== FILE: reals.dfy ===
/** Small helpers over the exact reals that stand in for the source's `CGFloat` and `Double`. */
module Reals {

  /** Swift's `abs`. */
  function Abs(x: real): (r: real)
    ensures r >= 0.0
    ensures r == x || r == -x
  {
    if x < 0.0 then -x else x
  }

  function Min(a: real, b: real): (r: real)
    ensures r <= a && r <= b
    ensures r == a || r == b
  {
    if a <= b then a else b
  }

  function Max(a: real, b: real): (r: real)
    ensures r >= a && r >= b
    ensures r == a || r == b
  {
    if a >= b then a else b
  }

  /** Scaling by a positive factor keeps the order. */
  lemma ScaleKeepsOrder(a: real, b: real, w: real)
    requires w > 0.0
    ensures a > b <==> a * w > b * w
  {
    assert a * w - b * w == (a - b) * w;
    if a > b {
      assert (a - b) * w > 0.0;
    } else {
      assert (b - a) * w >= 0.0;
    }
  }

  /** Scaling by a positive factor commutes with `Abs`. */
  lemma AbsScale(a: real, w: real)
    requires w > 0.0
    ensures Abs(a) * w == Abs(a * w)
  {
    ScaleKeepsOrder(a, 0.0, w);
    ScaleKeepsOrder(0.0, a, w);
    if a < 0.0 {
      assert Abs(a) * w == -(a * w);
    }
  }

  /** A value scaled by a positive factor is recovered by dividing by it. */
  lemma Unscale(a: real, w: real, x: real)
    requires w > 0.0 && a * w == x
    ensures a == x / w
  {
  }
}

=== FILE: recognizers.dfy ===
/**
  The host window's list of gesture recognizers, as far as the menu touches it:
  it looks up its own screen-edge recognizer with `indexOf`, removes it with
  `removeAtIndex` and adds it back with `append`
  (Pod/Classes/BBSlideoutMenu.swift, `setupEdgePan`, `animateSlideOpen`, `dismissSlideMenu`).
 */
module Recognizers {
  import opened Wrappers

  /** A recognizer on the window: one the host installed itself, or a screen-edge
      pan recognizer created by the menu, told apart by the serial of its creation. */
  datatype Recognizer = System(tag: nat) | ScreenEdge(serial: nat)

  /** No recognizer in `s` was created by the menu. */
  predicate NoEdges(s: seq<Recognizer>)
  {
    forall i :: 0 <= i < |s| ==> s[i].System?
  }

  /** Every menu-created recognizer in `s` is the one with serial `k`. */
  predicate EdgesAre(s: seq<Recognizer>, k: nat)
  {
    forall i :: 0 <= i < |s| && s[i].ScreenEdge? ==> s[i].serial == k
  }

  /** Swift's `indexOf`: the position of the first occurrence of `r`, if any. */
  function IndexOf(s: seq<Recognizer>, r: Recognizer): (i: Option<nat>)
    ensures i.None? <==> r !in s
    ensures i.Some? ==> i.value < |s| && s[i.value] == r && r !in s[..i.value]
  {
    if |s| == 0 then None
    else if s[0] == r then Some(0)
    else match IndexOf(s[1..], r)
      case None => None
      case Some(k) =>
        assert s[..k + 1] == [s[0]] + s[1..][..k];
        Some(k + 1)
  }

  /** `if let index = list.indexOf(r) { list.removeAtIndex(index) }`: removes the
      first occurrence of `r` and nothing else; a list without `r` is returned as is. */
  function Detach(s: seq<Recognizer>, r: Recognizer): (t: seq<Recognizer>)
    ensures multiset(t) == multiset(s) - multiset{r}
    ensures r in s ==> |t| == |s| - 1
    ensures r !in s ==> t == s
  {
    match IndexOf(s, r)
    case None =>
      assert multiset(s)[r] == 0;
      s
    case Some(i) =>
      assert s == s[..i] + [s[i]] + s[i + 1..];
      s[..i] + s[i + 1..]
  }

  /** The host's own recognizers, in order. */
  function Systems(s: seq<Recognizer>): (t: seq<Recognizer>)
    ensures |t| <= |s|
    ensures NoEdges(t)
  {
    if |s| == 0 then []
    else (if s[0].System? then [s[0]] else []) + Systems(s[1..])
  }

  lemma {:induction false} SystemsConcat(a: seq<Recognizer>, b: seq<Recognizer>)
    ensures Systems(a + b) == Systems(a) + Systems(b)
    decreases |a|
  {
    if |a| == 0 {
      assert a + b == b;
    } else {
      var head := if a[0].System? then [a[0]] else [];
      assert (a + b)[0] == a[0];
      assert (a + b)[1..] == a[1..] + b;
      SystemsConcat(a[1..], b);
      calc {
        Systems(a + b);
        head + Systems(a[1..] + b);
        head + (Systems(a[1..]) + Systems(b));
        (head + Systems(a[1..])) + Systems(b);
        Systems(a) + Systems(b);
      }
    }
  }

  /** Detaching or attaching a menu-created recognizer leaves the host's own
      recognizers, and their order, exactly as they were. */
  lemma SystemsIgnoreEdges(s: seq<Recognizer>, k: nat)
    ensures Systems(Detach(s, ScreenEdge(k))) == Systems(s)
    ensures Systems(s + [ScreenEdge(k)]) == Systems(s)
  {
    SystemsConcat(s, [ScreenEdge(k)]);
    assert Systems([ScreenEdge(k)]) == [];
    var i := IndexOf(s, ScreenEdge(k));
    if i.Some? {
      SystemsAround(s, i.value);
    }
  }

  lemma SystemsAround(s: seq<Recognizer>, i: nat)
    requires i < |s| && s[i].ScreenEdge?
    ensures Systems(s[..i] + s[i + 1..]) == Systems(s)
  {
    var a, b := s[..i], s[i + 1..];
    var c := [s[i]] + b;
    assert s == a + c;
    SystemsConcat(a, c);
    assert Systems(c) == Systems(b) by {
      assert c[1..] == b;
    }
    SystemsConcat(a, b);
  }

  /** When `k` is the only menu recognizer in `s` and it occurs at most once,
      detaching it leaves no menu recognizer behind. */
  lemma DetachClearsEdges(s: seq<Recognizer>, k: nat)
    requires EdgesAre(s, k)
    requires multiset(s)[ScreenEdge(k)] <= 1
    ensures NoEdges(Detach(s, ScreenEdge(k)))
  {
    var t := Detach(s, ScreenEdge(k));
    assert multiset(t)[ScreenEdge(k)] == 0;
    forall i | 0 <= i < |t|
      ensures t[i].System?
    {
      var x := t[i];
      assert x in multiset(t);
      assert x in multiset(s);
      var j :| 0 <= j < |s| && s[j] == x;
      assert x.ScreenEdge? ==> x == ScreenEdge(k);
    }
  }

  /** A list without menu recognizers mentions every serial zero times. */
  lemma NoEdgesCount(s: seq<Recognizer>, k: nat)
    requires NoEdges(s)
    ensures ScreenEdge(k) !in s
    ensures multiset(s)[ScreenEdge(k)] == 0
  {
    forall j | 0 <= j < |s|
      ensures s[j] != ScreenEdge(k)
    {
    }
  }

  /** Appending a fresh menu recognizer to a list without any leaves it the only one, once. */
  lemma AttachToClean(s: seq<Recognizer>, k: nat)
    requires NoEdges(s)
    ensures EdgesAre(s + [ScreenEdge(k)], k)
    ensures multiset(s + [ScreenEdge(k)])[ScreenEdge(k)] == 1
  {
    NoEdgesCount(s, k);
  }

  /** A list whose only menu recognizer is `k` but that lacks `k` has none at all. */
  lemma EdgesAreAbsent(s: seq<Recognizer>, k: nat)
    requires EdgesAre(s, k) && ScreenEdge(k) !in s
    ensures NoEdges(s)
  {
    forall i | 0 <= i < |s|
      ensures s[i].System?
    {
      assert s[i] != ScreenEdge(k);
    }
  }

  /** In a list whose only menu recognizer is `k`, every other serial occurs zero times. */
  lemma OthersAbsent(s: seq<Recognizer>, k: nat, j: nat)
    requires EdgesAre(s, k) && j != k
    ensures multiset(s)[ScreenEdge(j)] == 0
  {
    forall i | 0 <= i < |s|
      ensures s[i] != ScreenEdge(j)
    {
    }
    assert ScreenEdge(j) !in s;
  }
}

=== FILE: wrappers.dfy ===
/** Optional values, standing in for Swift's optionals (`Bool?`, `Double?`, a recognizer that may not exist yet). */
module Wrappers {

  datatype Option<+T> = None | Some(value: T) {

    /** Swift's `x ?? default`. */
    function GetOr(default: T): (r: T)
      ensures Some? ==> r == value
      ensures None? ==> r == default
    {
      match this
      case Some(v) => v
      case None => default
    }
  }
}
